=== FILE: README.md ===
# utxo tracker — a Dafny model of its core

`utxo.py` is a command-line Bitcoin analysis tool with two modes.

**Address mode** queries one address at four public providers in parallel. Each request goes through `fetch_with_rotating`, a bounded retry loop that returns the first status-200 body or nothing. The results are gathered into one dictionary keyed by provider name. A companion fetches the details of many transactions in parallel, one entry per txid.

**Transaction mode** walks backwards through the inputs of a transaction, down to a maximum depth (`dig_tx`). It fetches every transaction once per visit from mempool.space (`get_tx`). It records every input txid and every source address it sees in one global dictionary, `bittrack_dict`. That dictionary holds two first-seen-ordered lists plus one occurrence counter per string.

The model describes these operations as pure functions:

- The network is a parameter. It is a stream of attempts per URL for the retrying fetch, and a single attempt per URL for `get_tx`.
- JSON decoding is a parameter.
- The completion order of a thread pool is a parameter: any permutation of the submitted jobs.
- The global dictionary is a value. It is threaded through the walk and returned with it.
- The walk also returns the transactions it visited (with their level) and the log of registrations it made, in order.

Modules, in dependency order:

| file | module | contents |
|---|---|---|
| `base.dfy` | `Base` | `Option`, `Result`, bytes |
| `ordered.dfy` | `Ordered` | duplicate-free sequences, append-if-absent, first-seen deduplication |
| `fetch.dfy` | `Fetch` | `fetch_with_rotating` |
| `address_mode.dfy` | `AddressMode` | `get_address_data`, `fetch_transaction_detail`, `get_transactions_details` |
| `tracker.dfy` | `Tracking` | `bittrack_dict`: registration, replay of a log, its flat dictionary layout |
| `transactions.dfy` | `Transactions` | the transaction record, reading an input, `get_tx` |
| `digging.dfy` | `Digging` | `dig_tx`, `tx_mode` |

### Notes on the code

- **Recursion does not depend on novelty.** The walk descends into every distinct truthy input txid of the current transaction, whether or not it was seen before (utxo.py:251-259, 285-286). `next_txids` is local to one call, and the tracker is never consulted when choosing what to dig next. It is read to decide the append-if-absent and the repeat warnings (utxo.py:263, 272), for the counters (utxo.py:269, 277) and for the highlight (utxo.py:280-281). `Digging.DigIgnoresTracker` proves that the visits and the log do not depend on the tracker at all.
- **One counter map for everything.** Addresses and txids are counted in the same dictionary that also holds the two lists (utxo.py:200, 269, 277). A string seen once as a txid and once as an address counts 2.
- **The model's walk is the corrected one; the program's is modelled beside it.** `Digging.Dig` reads a null prevout as a missing one and counts every string (see "## Findings"). `Digging.DigAsWritten` is the walk as the program runs it: it ends in the exception instead of a report as soon as an expanded transaction has an input that raises. `Digging.DigAsWrittenAgrees` proves the two agree exactly when no fetched transaction has such an input.

## Model

| member | source | states |
|---|---|---|
| Fetch.FetchWithRotating | utxo.py:59-79 | at most `max_attempts` requests (none when it is not positive); data is returned only when the last request answered 200, with that body, and every earlier request failed; None only after exactly `max_attempts` failed requests |
| Fetch.FetchSucceedsIffSomeAttemptOk | utxo.py:59-79 | the fetch yields data iff one of the first `max_attempts` attempts answers 200; in that case it is the body of the first such attempt, after exactly that many requests |
| AddressMode.ResolveEndpoint | utxo.py:96-104 | a provider's entry is a parsed document iff data arrived and decoded; otherwise it is an error text starting "Error: ", and "Error: No data received from <name>" when no data arrived |
| AddressMode.GatherIsOrderFree | utxo.py:93-104 | gathering finished futures in any order writes exactly the submitted keys, each with its own job's entry, when jobs with one key agree |
| AddressMode.GetAddressData | utxo.py:81-105 | for every completion order of the four fetches, the result has exactly the four provider names as keys, and each holds the resolution of a rotating fetch of that provider's URL for the address |
| AddressMode.ResolveDetail | utxo.py:112-119 | a fetched payload becomes a document iff it is non-empty and decodes; a missing or empty payload gives "No data received", a decode failure "Failed to parse transaction data: " and the message |
| AddressMode.DetailAgreesWithEndpoint | utxo.py:96-119 | the detail lookup and the address lookup agree on every payload except the empty one, which only the address lookup hands to the decoder |
| AddressMode.FetchTransactionDetail | utxo.py:107-119 | the detail is a document iff a non-empty body arrived and decoded; an empty or missing body gives "No data received" and a decode failure gives a "Failed to parse" error |
| AddressMode.GetTransactionsDetails | utxo.py:121-134 | for every completion order, the keys are exactly the requested txids (duplicates collapse) and each maps to that txid's detail fetch |
| Ordered.AppendNew | utxo.py:258-259 | append-if-absent keeps the old prefix, adds at most the new elements, has exactly the union's elements, and preserves duplicate-freedom |
| Ordered.DedupSpec | utxo.py:258-259 | first-seen deduplication is duplicate-free, has the same elements, and orders them by first occurrence |
| Tracking.RegisterTxid | utxo.py:262-269 | after registering a txid it is listed, the list grew by one exactly when it was new and kept its prefix, the address list is unchanged, its counter rose by one and no other counter moved; validity is preserved |
| Tracking.RegisterAddress | utxo.py:271-277 | the same for an address |
| Tracking.Replay | utxo.py:262-277 | replaying a log of registrations only extends the tracker (lists keep their prefixes, counters never fall) and preserves validity |
| Tracking.ReplayMeaning | utxo.py:262-277 | replay is an append-if-absent pass over the log's txids and another over its addresses, and each counter grows by the number of registrations of its string |
| Tracking.FreshReplay | utxo.py:262-277 | from the empty dictionary, the lists are the first-seen-ordered distinct txids and addresses of the log, each counter equals the string's number of registrations, and a string has a counter iff it was registered |
| Tracking.SnapshotRoundTrip | utxo.py:310-320 | the single dictionary holds the whole tracker (lists and counters read back) iff no counter is filed under "addresses" or "txids" |
| Tracking.RegisterAsWritten | utxo.py:262-277 | registration on the one shared dictionary fails with a TypeError iff the string is one of the two list keys; otherwise the dictionary keeps its shape |
| Tracking.RegisterTxidAsWrittenAgrees | utxo.py:262-269 | for every other string, txid registration on the shared dictionary gives the layout of the model's registration |
| Tracking.RegisterAddressAsWrittenAgrees | utxo.py:271-277 | the same for address registration |
| Transactions.InputTxid | utxo.py:253-262 | an input contributes a txid iff its `txid` is present, non-null and non-empty, and then it is that value |
| Transactions.InputAddress | utxo.py:254-255 | the address recorded for an input is "N/A" when the prevout or its address is missing (or the prevout is null), the address itself when it is non-empty, and nothing iff the address is null or empty |
| Transactions.InputAddressAsWritten | utxo.py:254-255 | the program's own reading raises iff the prevout is present as null |
| Transactions.AddressReadingsAgree | utxo.py:254-255 | the program's reading and the corrected one agree on every input whose prevout is not null |
| Transactions.InputFault | utxo.py:253-277 | reading and registering an input raises iff its prevout is null, or its truthy txid or its recorded address is one of the list keys "addresses" or "txids"; a null prevout raises the AttributeError, the others the `list + int` TypeError |
| Transactions.ExpandAsWritten | utxo.py:252-277 | the program's scan of an input list completes iff no input raises, and then it makes exactly the model's registrations; otherwise it fails with the exception of the first input that raises |
| Transactions.TruthyTxids | utxo.py:252-258 | a string is among the collected txids iff some input carries it as a truthy txid |
| Transactions.SightingsTxids | utxo.py:252-269 | the txids registered while reading a transaction's inputs are exactly its truthy input txids, in order, repeats included |
| Transactions.TxUrlRoundTrip | utxo.py:210-218 | a URL is built iff the network is "bitcoin" or "testnet", and from that URL the network and txid can be read back |
| Transactions.GetTx | utxo.py:205-229 | a transaction is returned only from a status-200 reply to the network's URL that decodes, and every such reply gives its decoding |
| Transactions.UnknownNetworkSendsNothing | utxo.py:215-218 | for an unknown network the result is None whatever the network would answer |
| Digging.NextTxids | utxo.py:251-259 | the txids to descend into are duplicate-free, are exactly the truthy input txids, and come in order of first occurrence among the inputs |
| Digging.Dig | utxo.py:231-286 | a call visits nothing iff the level has reached the maximum, otherwise it first visits its own txid at its level; every deeper visit has a level strictly between; the tracker only grows and stays valid (which deeper visits happen, in which depth-first order, and what they register, is stated by Digging.DigExpandsInputs, Digging.DigFollowsInputs and Digging.DigLogsVisits) |
| Digging.DigAll | utxo.py:285-286 | the loop over the next txids visits only levels in [level, max) and only extends a valid tracker |
| Digging.DigStops | utxo.py:235-245 | at or past the maximum depth nothing happens; a missing transaction, a missing or null `vin` or an empty `vin` gives a visit and nothing else |
| Digging.DigReplaysLog | utxo.py:262-277 | the final tracker is the incoming tracker with the walk's registration log replayed onto it |
| Digging.DigIgnoresTracker | utxo.py:251-286 | the visits and registrations of a walk do not depend on the tracker it starts from |
| Digging.DigCounts | utxo.py:262-277 | after a walk, each counter equals its previous value plus the walk's registrations of its string |
| Digging.DigAllOrder | utxo.py:285-286 | the transactions visited at the loop's own level are exactly the next txids, in order |
| Digging.DigChildren | utxo.py:246-286 | a visit registers its inputs first, then visits exactly `NextTxids(vin)` at the next level when that is below the maximum, and visits only itself otherwise |
| Digging.DigFollowsInputs | utxo.py:251-286 | every visit after the first is reached from an earlier visit one level up whose transaction has it as a truthy input txid, and every visit in between is deeper than that parent: each child's whole subtree is fetched before its next sibling |
| Digging.BreadthFirstRejected | utxo.py:285-286 | on a history r→{a,b}, a→c, b→d, c→e, the breadth-first order is not a walk (c has no justifying fetch once a's sibling b intervenes) while the depth-first order r, a, c, e, b, d is |
| Digging.DigExpandsInputs | utxo.py:246-286 | the walk goes all the way down: every visited transaction above the last level has each txid of its `next_txids` visited after it, one level deeper |
| Digging.DigLogsVisits | utxo.py:242-277 | the walk's registrations are exactly the input sightings of every visited transaction that has an input list, in visit order, at every depth |
| Digging.TxMode | utxo.py:327-333 | a run from the empty dictionary leaves a valid tracker and visits nothing iff the maximum level is not positive |
| Digging.TxModeReport | utxo.py:327-333 | the reported lists are the first-seen distinct txids and addresses registered, each count is the number of registrations, the registrations are the inputs of every fetched transaction in fetch order, and an unknown network leaves the dictionary empty |
| Digging.DigAsWrittenAgrees | utxo.py:231-286 | the program's walk ends normally iff every transaction the model's walk fetches has no input that raises, and then it is exactly the model's walk |
| Digging.TxModeAsWritten | utxo.py:327-333 | the program's run produces a report iff no fetched transaction has an input that raises, and that report is the model's |
| Digging.CoinbaseWalkAborts | utxo.py:252-255 | on a transaction whose only input is a coinbase input the program's one-level walk raises, while the model's records the address "N/A" |

## Left out

- HTTP: `urllib3` pools, `requests`, status codes and exceptions are abstracted as `Attempt` values supplied by a network parameter. Which of the four pools `random.choice` picks is folded into that parameter. Randomness cannot be modelled otherwise.
- The sleeps (utxo.py:78, 209) are left out. They only affect timing.
- JSON and UTF-8 decoding are parameters (`parse`, `decode`). Decoded documents are abstract, except for the fields the walk reads: `vin`, `txid`, `prevout`, `scriptpubkey_address`.
- Fields read only for display are not modelled: `value` (utxo.py:256) and `vout` (utxo.py:247).
- Malformed documents beyond null fields are outside the model. This covers a decoded transaction that is not a JSON object (`tx.get` raises at utxo.py:242). It covers a `vout` that is null or has no length (`len` raises at utxo.py:249, before any input of that transaction is registered). It covers a `vin` entry that is not an object (`vin.get` raises at utxo.py:253), and a `txid` or address that is not a string. It covers a `prevout` present as a string or a list (`.get` raises at utxo.py:255) and a `vin` that is a number or a boolean (`len` raises at utxo.py:249). In general, any read field of the wrong JSON type is outside the model. `Tx` and `Input` are always objects whose read fields are strings, and the model has no `vout`.
- Thread pools are not modelled. Concurrency is reduced to a completion-order parameter, a permutation of the submitted jobs. The futures themselves, the locks and the interleaving are left out. The key order of the gathered dictionaries, which follows completion and shows when they are displayed or saved, is not modelled: a Dafny map has no order.
- The `except` at utxo.py:132-133 is unreachable, because `fetch_transaction_detail` catches its own errors. It is not modelled.
- All printing is left out: colours, the repeat warnings (utxo.py:266-267, 275-276), the per-input highlight (utxo.py:279-283), the summary display (utxo.py:288-308) and address-mode display.
- Saving results to files is left out. The content `save_tx_results` writes is modelled as `Tracking.Snapshot`.
- The address-mode probing of the rawaddr `txs` list is left out. It depends on the shape of provider documents, which are abstract.
- Argument parsing and `main` are left out.
- AddressMode.GetTransactionsDetails: the network is a function of the URL, so two lookups of the same txid always see the same replies. In the program a txid listed twice is fetched twice, independently and through randomly chosen pools, and the entry kept is whichever finished last (utxo.py:127-131). With a duplicate the result can depend on completion order; the model does not show that.
- Transactions.GetTx: `requests.get` is called without a timeout (utxo.py:220), unlike the pools of `fetch_with_rotating` (utxo.py:26). A stalled connection can block the walk forever. The model assumes every request completes.
- AddressMode.FetchTransactionDetail: the error dictionaries are modelled as an error variant carrying a message. The dictionary layout `{"error": ...}` is not modelled.
- Digging.Dig: it is the corrected walk. It reads a null prevout as a missing one and counts strings spelled "addresses" or "txids" like any other, where the program raises and the run ends without a report. `Digging.DigAsWritten` models that abort.
- Digging.Dig: the walk recurses in an unbounded (mathematical) integer level. Python's recursion limit (deep chains raise RecursionError) is not modelled.
- Digging.Dig: `get` is a function of the txid, so every fetch of one txid sees the same reply. The program requests a txid again each time it is dug (utxo.py:237, 220), and a later request can answer differently, for example with a non-200 status. The model assumes repeated fetches of one txid agree.

## Findings

| source | as written | input that shows it | evidently intended | confidence | as-written member | corrected member |
|---|---|---|---|---|---|---|
| utxo.py:254-255 | `vin.get('prevout', {})` returns `None` when the key is present with JSON `null`; `None.get(...)` then raises AttributeError and aborts the whole run | an input `{"txid": "00…00", "prevout": null}`, the shape of a coinbase input | treat a null prevout like a missing one and record "N/A" | medium, not executed | Transactions.InputAddressAsWritten and Digging.DigAsWritten (shown by Transactions.CoinbaseInputRaises and Digging.CoinbaseWalkAborts) | Transactions.InputAddress, used by Digging.Dig |
| utxo.py:200, 269, 277 | counters share the dictionary with the list keys "addresses" and "txids"; registering either string does `list + 1` and raises TypeError | a transaction whose input address or txid is the string "txids" | count every string; keep counters apart from the lists | low, not executed | Tracking.RegisterAsWritten and Digging.DigAsWritten (shown by Tracking.ListKeyRegistrationRaises) | Tracking.RegisterTxid and Tracking.RegisterAddress, used by Digging.Dig |

=== FILE: address_mode.dfy ===
/** Address mode: one address queried at four providers, and the detail
    lookup for a batch of transaction ids.

    Both fan out over a worker pool and write each result into a dictionary
    keyed by provider name or txid as the workers finish. The model takes
    the completion order as a parameter (`completed`, a permutation of the
    submitted work) and shows that the final dictionary holds the same keys
    and entries whatever it is. Python's dictionary also keeps its keys in
    insertion order, which does follow completion; a Dafny map has no
    order. JSON decoding is the parameter `parse`, which yields a document
    of type `D` or the text of the exception raised. */
module AddressMode {
  import opened Base
  import opened Fetch

  /** The four providers: a name and the URL prefix the address is
      appended to. */
  const Providers: seq<(string, string)> := [
    ("blockchain_balance", "https://blockchain.info/balance?active="),
    ("blockchain_rawaddr", "https://blockchain.info/rawaddr/"),
    ("blockcypher", "https://api.blockcypher.com/v1/btc/main/addrs/"),
    ("blockstream", "https://blockstream.info/api/address/")
  ]

  /** The keys of the address snapshot. */
  const ProviderNames: set<string> := set p | p in Providers :: ProviderName(p)

  /** One provider's entry in the address snapshot. */
  datatype AddressEntry<D> = Parsed(doc: D) | ErrorText(text: string)

  /** The entry recorded for provider `name` once its fetch has returned. */
  function ResolveEndpoint<D>(name: string, data: Option<Bytes>, parse: Bytes -> Result<D>): (e: AddressEntry<D>)
    ensures e.Parsed? <==> data.Some? && parse(data.value).Success?
    ensures e.Parsed? ==> parse(data.value) == Success(e.doc)
    ensures e.ErrorText? ==> |e.text| >= 7 && e.text[..7] == "Error: "
    ensures data.None? ==> e.text == "Error: No data received from " + name
  {
    match data
    case None => ErrorText("Error: No data received from " + name)
    case Some(bytes) =>
      match parse(bytes)
      case Success(doc) => Parsed(doc)
      case Failure(msg) => ErrorText("Error: " + msg)
  }

  /** Writes `entry(k)` under key `key(k)` for each finished job `k`, in
      the order the jobs finished. */
  function Gather<J, K, V>(done: seq<J>, key: J -> K, entry: J -> V, results: map<K, V>): (r: map<K, V>)
    decreases |done|
  {
    if done == [] then results
    else Gather(done[1..], key, entry, results[key(done[0]) := entry(done[0])])
  }

  /** When every job with the same key carries the same entry, the gathered
      dictionary holds one entry per key and nothing else, whatever the
      order the jobs finished in. */
  lemma {:induction false} GatherIsOrderFree<J, K, V>(done: seq<J>, key: J -> K, entry: J -> V, results: map<K, V>)
    requires forall a, b :: a in done && b in done && key(a) == key(b) ==> entry(a) == entry(b)
    ensures var r := Gather(done, key, entry, results);
      && r.Keys == results.Keys + (set j | j in done :: key(j))
      && (forall k :: k in results && k !in (set j | j in done :: key(j)) ==> r[k] == results[k])
      && (forall j :: j in done ==> r[key(j)] == entry(j))
    decreases |done|
  {
    if done != [] {
      var rest := done[1..];
      assert forall j :: j in rest ==> j in done;
      var m := results[key(done[0]) := entry(done[0])];
      GatherIsOrderFree(rest, key, entry, m);
      assert (set j | j in done :: key(j)) == {key(done[0])} + (set j | j in rest :: key(j)) by {
        assert forall j :: j in done <==> j == done[0] || j in rest;
      }
      var r := Gather(done, key, entry, results);
      forall j | j in done
        ensures r[key(j)] == entry(j)
      {
        if j !in rest {
          assert j == done[0];
          if key(j) in (set j | j in rest :: key(j)) {
            var j' :| j' in rest && key(j') == key(j);
          }
        }
      }
    }
  }

  /** No two providers share a name. */
  lemma ProviderNamesDistinct()
    ensures forall a, b :: a in Providers && b in Providers && a.0 == b.0 ==> a == b
  {
    var ps := Providers;
    assert forall p :: p in ps <==> p == ps[0] || p == ps[1] || p == ps[2] || p == ps[3];
    assert ps[0].0[..11] == "blockchain_" && ps[1].0[..11] == "blockchain_";
    assert ps[0].0[11] == 'b' && ps[1].0[11] == 'r';
    assert ps[2].0[6] == 'y' && ps[3].0[6] == 't';
  }

  /** A permutation has the same elements. */
  lemma SameElements<T>(a: seq<T>, b: seq<T>)
    requires multiset(a) == multiset(b)
    ensures forall x :: x in a <==> x in b
  {
    forall x ensures x in a <==> x in b {
      assert x in a <==> x in multiset(a);
    }
  }

  /** The provider name a finished fetch is filed under. */
  function ProviderName(p: (string, string)): (name: string) {
    p.0
  }

  /** What a finished fetch of provider `p` for `address` writes into the
      snapshot. */
  function ProviderEntry<D>(net: string -> nat -> Attempt, parse: Bytes -> Result<D>, address: string): (entry: ((string, string)) -> AddressEntry<D>) {
    (p: (string, string)) => ResolveEndpoint(p.0, FetchWithRotating(net(p.1 + address), DefaultAttempts).data, parse)
  }

  /** `get_address_data(address)`: exactly one entry per provider, either
      the parsed document or an "Error: ..." text, whatever order the four
      fetches finished in. */
  function GetAddressData<D>(net: string -> nat -> Attempt, parse: Bytes -> Result<D>,
                             address: string, completed: seq<(string, string)>): (r: map<string, AddressEntry<D>>)
    requires multiset(completed) == multiset(Providers)
    ensures r.Keys == ProviderNames
    ensures forall p :: p in Providers ==>
      r[p.0] == ResolveEndpoint(p.0, FetchWithRotating(net(p.1 + address), DefaultAttempts).data, parse)
  {
    ProviderNamesDistinct();
    GatherPermutation(completed, Providers, ProviderName, ProviderEntry(net, parse, address));
    Gather(completed, ProviderName, ProviderEntry(net, parse, address), map[])
  }

  /** Gathering any completion order of jobs with distinct keys yields one
      entry per job. */
  lemma GatherPermutation<J, K, V>(done: seq<J>, all: seq<J>, key: J -> K, entry: J -> V)
    requires multiset(done) == multiset(all)
    requires forall a, b :: a in all && b in all && key(a) == key(b) ==> a == b
    ensures var r := Gather(done, key, entry, map[]);
      && r.Keys == (set j | j in all :: key(j))
      && forall j :: j in all ==> r[key(j)] == entry(j)
  {
    SameElements(done, all);
    GatherIsOrderFree(done, key, entry, map[]);
    assert (set j | j in done :: key(j)) == (set j | j in all :: key(j));
  }

  /** One transaction's detail, or the error dictionary put in its place. */
  datatype TxDetail<D> = Detail(doc: D) | DetailError(error: string)

  function RawTxUrl(txid: string): (url: string) {
    "https://blockchain.info/rawtx/" + txid + "?format=json"
  }

  /** The detail recorded for a fetched payload: an empty payload counts
      as no data (`if data:`), unlike in `get_address_data`. */
  function ResolveDetail<D>(data: Option<Bytes>, parse: Bytes -> Result<D>): (r: TxDetail<D>)
    ensures r.Detail? <==> data.Some? && |data.value| > 0 && parse(data.value).Success?
    ensures r.Detail? ==> parse(data.value) == Success(r.doc)
    ensures data.None? || data == Some([]) ==> r == DetailError("No data received")
    ensures data.Some? && data.value != [] && parse(data.value).Failure? ==>
      r == DetailError("Failed to parse transaction data: " + parse(data.value).error)
  {
    if data.Some? && |data.value| > 0 then
      match parse(data.value)
      case Success(doc) => Detail(doc)
      case Failure(msg) => DetailError("Failed to parse transaction data: " + msg)
    else
      DetailError("No data received")
  }

  /** The two lookups treat a payload alike, document for document and
      error for error, except an empty one: the address lookup hands it to
      the decoder, the detail lookup reports that no data arrived. */
  lemma DetailAgreesWithEndpoint<D>(name: string, data: Option<Bytes>, parse: Bytes -> Result<D>)
    ensures data != Some([]) ==>
      (ResolveDetail(data, parse).Detail? <==> ResolveEndpoint(name, data, parse).Parsed?)
    ensures data != Some([]) && ResolveDetail(data, parse).Detail? ==>
      ResolveDetail(data, parse).doc == ResolveEndpoint(name, data, parse).doc
    ensures data == Some([]) ==>
      && ResolveDetail(data, parse) == DetailError("No data received")
      && (ResolveEndpoint(name, data, parse).Parsed? <==> parse([]).Success?)
  {
  }

  /** `fetch_transaction_detail(txid)`: a rotating fetch of the txid's
      detail URL, resolved as above. */
  function FetchTransactionDetail<D>(net: string -> nat -> Attempt, parse: Bytes -> Result<D>, txid: string): (r: TxDetail<D>)
    ensures var data := FetchWithRotating(net(RawTxUrl(txid)), DefaultAttempts).data;
      && (r.Detail? <==> data.Some? && |data.value| > 0 && parse(data.value).Success?)
      && (r.Detail? ==> parse(data.value) == Success(r.doc))
      && (r == DetailError("No data received") <== data.None? || data.value == [])
      && (data.Some? && data.value != [] && parse(data.value).Failure? ==>
            r == DetailError("Failed to parse transaction data: " + parse(data.value).error))
  {
    ResolveDetail(FetchWithRotating(net(RawTxUrl(txid)), DefaultAttempts).data, parse)
  }

  /** `get_transactions_details(txids)`: exactly one entry per requested
      txid (duplicates collapse), whatever order the lookups finished in. */
  function GetTransactionsDetails<D>(net: string -> nat -> Attempt, parse: Bytes -> Result<D>,
                                     txids: seq<string>, completed: seq<string>): (r: map<string, TxDetail<D>>)
    requires multiset(completed) == multiset(txids)
    ensures r.Keys == set t | t in txids
    ensures forall t :: t in txids ==> r[t] == FetchTransactionDetail(net, parse, t)
  {
    var entry := (t: string) => FetchTransactionDetail(net, parse, t);
    var key := (t: string) => t;
    SameElements(completed, txids);
    GatherIsOrderFree(completed, key, entry, map[]);
    Gather(completed, key, entry, map[])
  }
}

=== FILE: base.dfy ===
/** Small shared vocabulary: optional values, results carrying an error
    message, and raw bytes as returned by an HTTP response body. */
module Base {

  /** A value that may be missing; `None` plays the part of Python's `None`. */
  datatype Option<T> = None | Some(value: T)

  /** The outcome of decoding: a value, or the text of the exception raised. */
  datatype Result<T> = Success(value: T) | Failure(error: string)

  newtype byte = x: int | 0 <= x < 256

  type Bytes = seq<byte>
}

=== FILE: digging.dfy ===
/** Transaction-digging mode: the depth-bounded walk `dig_tx` over the
    inputs of a transaction, with the fetch `get_tx` abstracted as an
    oracle `get` from txid to decoded transaction.

    Besides the tracker it threads, the model's walk records what the
    program does observably: every call of `get` (a `Visit`, with the level
    it happened at) and every registration (a `Sighting`), in order. */
module Digging {
  import opened Base
  import opened Ordered
  import opened Fetch
  import opened Tracking
  import opened Transactions

  datatype Visit = Visit(txid: string, level: int)

  /** The tracker after the walk, the fetches made and the registrations
      performed, each in the order they happened. */
  datatype Walk = Walk(tracker: Tracker, visits: seq<Visit>, log: seq<Sighting>)

  /** `next_txids`: the transactions to dig next, i.e. the distinct truthy
      input txids in the order they first occur among the inputs. */
  function NextTxids(inputs: seq<Input>): (next: seq<string>)
    ensures NoDup(next)
    ensures forall id :: id in next <==> exists k :: 0 <= k < |inputs| && InputTxid(inputs[k]) == Some(id)
    ensures forall i, j :: 0 <= i < j < |next| ==>
      FirstIndex(TruthyTxids(inputs), next[i]) < FirstIndex(TruthyTxids(inputs), next[j])
  {
    DedupSpec(TruthyTxids(inputs));
    Dedup(TruthyTxids(inputs))
  }

  /** `dig_tx(txid, level, max_level)`: stop at the depth bound before any
      fetch; otherwise fetch, stop on a missing transaction or a missing
      input list, register every input in order, and dig each distinct
      input txid one level deeper, depth first. */
  function Dig(get: string -> Option<Tx>, txid: string, level: int, maxLevel: int, t: Tracker): (w: Walk)
    ensures (w.visits == []) <==> level >= maxLevel
    ensures level < maxLevel ==> w.visits[0] == Visit(txid, level)
    ensures forall k :: 1 <= k < |w.visits| ==> level < w.visits[k].level < maxLevel
    ensures Extends(t, w.tracker)
    ensures Valid(t) ==> Valid(w.tracker)
    decreases maxLevel - level + 1, 0
  {
    if level >= maxLevel then Walk(t, [], [])
    else
      match get(txid)
      case None => Walk(t, [Visit(txid, level)], [])
      case Some(tx) =>
        match tx.vin
        case Present(inputs) =>
          var log := Sightings(inputs);
          var children := DigAll(get, NextTxids(inputs), level + 1, maxLevel, Replay(t, log));
          Walk(children.tracker, [Visit(txid, level)] + children.visits, log + children.log)
        case _ => Walk(t, [Visit(txid, level)], [])
  }

  /** The loop over `next_txids`: each one dug in turn at `level`, the
      tracker threaded from one to the next. */
  function DigAll(get: string -> Option<Tx>, ids: seq<string>, level: int, maxLevel: int, t: Tracker): (w: Walk)
    ensures forall k :: 0 <= k < |w.visits| ==> level <= w.visits[k].level < maxLevel
    ensures level >= maxLevel ==> w.visits == []
    ensures Extends(t, w.tracker)
    ensures Valid(t) ==> Valid(w.tracker)
    decreases maxLevel - level + 1, |ids|
  {
    if ids == [] then Walk(t, [], [])
    else
      var first := Dig(get, ids[0], level, maxLevel, t);
      var rest := DigAll(get, ids[1..], level, maxLevel, first.tracker);
      Walk(rest.tracker, first.visits + rest.visits, first.log + rest.log)
  }

  /** The walk never fetches at or beyond the depth bound and leaves the
      tracker alone there; a transaction that cannot be fetched, or has no
      input list, is fetched once and changes nothing; an empty input list
      is well-formed and simply has no children. */
  lemma DigStops(get: string -> Option<Tx>, txid: string, level: int, maxLevel: int, t: Tracker)
    ensures level >= maxLevel ==> Dig(get, txid, level, maxLevel, t) == Walk(t, [], [])
    ensures level < maxLevel && (get(txid).None? || !get(txid).value.vin.Present? || get(txid).value.vin.value == []) ==>
      Dig(get, txid, level, maxLevel, t) == Walk(t, [Visit(txid, level)], [])
  {
    if level < maxLevel && get(txid).Some? && get(txid).value.vin == Present([]) {
      assert Sightings([]) == [];
      assert NextTxids([]) == [];
    }
  }

  /** The tracker the walk returns is the one obtained by performing its
      recorded registrations, in order, on the tracker it was given. */
  lemma {:induction false} DigReplaysLog(get: string -> Option<Tx>, txid: string, level: int, maxLevel: int, t: Tracker)
    ensures var w := Dig(get, txid, level, maxLevel, t); w.tracker == Replay(t, w.log)
    decreases maxLevel - level + 1, 0
  {
    if level < maxLevel && get(txid).Some? && get(txid).value.vin.Present? {
      var inputs := get(txid).value.vin.value;
      var log := Sightings(inputs);
      var children := DigAll(get, NextTxids(inputs), level + 1, maxLevel, Replay(t, log));
      DigAllReplaysLog(get, NextTxids(inputs), level + 1, maxLevel, Replay(t, log));
      ReplayConcat(t, log, children.log);
    }
  }

  lemma {:induction false} DigAllReplaysLog(get: string -> Option<Tx>, ids: seq<string>, level: int, maxLevel: int, t: Tracker)
    ensures var w := DigAll(get, ids, level, maxLevel, t); w.tracker == Replay(t, w.log)
    decreases maxLevel - level + 1, |ids|
  {
    if ids != [] {
      var first := Dig(get, ids[0], level, maxLevel, t);
      var rest := DigAll(get, ids[1..], level, maxLevel, first.tracker);
      DigReplaysLog(get, ids[0], level, maxLevel, t);
      DigAllReplaysLog(get, ids[1..], level, maxLevel, first.tracker);
      ReplayConcat(t, first.log, rest.log);
    }
  }

  /** The walk never consults the tracker: which transactions it fetches,
      at which levels, and what it registers are the same whatever tracker
      it starts from. A txid already seen is dug again when it turns up as
      an input elsewhere. */
  lemma {:induction false} DigIgnoresTracker(get: string -> Option<Tx>, txid: string, level: int, maxLevel: int, t1: Tracker, t2: Tracker)
    ensures Dig(get, txid, level, maxLevel, t1).visits == Dig(get, txid, level, maxLevel, t2).visits
    ensures Dig(get, txid, level, maxLevel, t1).log == Dig(get, txid, level, maxLevel, t2).log
    decreases maxLevel - level + 1, 0
  {
    if level < maxLevel && get(txid).Some? && get(txid).value.vin.Present? {
      var inputs := get(txid).value.vin.value;
      var log := Sightings(inputs);
      DigAllIgnoresTracker(get, NextTxids(inputs), level + 1, maxLevel, Replay(t1, log), Replay(t2, log));
    }
  }

  lemma {:induction false} DigAllIgnoresTracker(get: string -> Option<Tx>, ids: seq<string>, level: int, maxLevel: int, t1: Tracker, t2: Tracker)
    ensures DigAll(get, ids, level, maxLevel, t1).visits == DigAll(get, ids, level, maxLevel, t2).visits
    ensures DigAll(get, ids, level, maxLevel, t1).log == DigAll(get, ids, level, maxLevel, t2).log
    decreases maxLevel - level + 1, |ids|
  {
    if ids != [] {
      var first1 := Dig(get, ids[0], level, maxLevel, t1);
      var first2 := Dig(get, ids[0], level, maxLevel, t2);
      DigIgnoresTracker(get, ids[0], level, maxLevel, t1, t2);
      DigAllIgnoresTracker(get, ids[1..], level, maxLevel, first1.tracker, first2.tracker);
    }
  }

  /** What the walk does to the tracker, in terms of its registrations:
      each list gains the strings registered into it that it did not hold,
      in first-seen order, and every counter grows by the number of times
      its string was registered anywhere in the walk, as txid or address. */
  lemma DigCounts(get: string -> Option<Tx>, txid: string, level: int, maxLevel: int, t: Tracker)
    ensures var w := Dig(get, txid, level, maxLevel, t);
      && w.tracker.txids == AppendNew(t.txids, TxidsOf(w.log))
      && w.tracker.addresses == AppendNew(t.addresses, AddressesOf(w.log))
      && forall s :: Count(w.tracker, s) == Count(t, s) + Occurrences(w.log, s)
  {
    var w := Dig(get, txid, level, maxLevel, t);
    DigReplaysLog(get, txid, level, maxLevel, t);
    ReplayMeaning(t, w.log);
  }

  /** The txids fetched at `level`, in order. */
  function AtLevel(visits: seq<Visit>, level: int): (ids: seq<string>) {
    if visits == [] then []
    else (if visits[0].level == level then [visits[0].txid] else []) + AtLevel(visits[1..], level)
  }

  lemma {:induction false} AtLevelConcat(a: seq<Visit>, b: seq<Visit>, level: int)
    ensures AtLevel(a + b, level) == AtLevel(a, level) + AtLevel(b, level)
    decreases |a|
  {
    if a == [] {
      assert a + b == b;
    } else {
      assert (a + b)[0] == a[0] && (a + b)[1..] == a[1..] + b;
      AtLevelConcat(a[1..], b, level);
    }
  }

  lemma {:induction false} AtLevelNone(visits: seq<Visit>, level: int)
    requires forall k :: 0 <= k < |visits| ==> visits[k].level != level
    ensures AtLevel(visits, level) == []
    decreases |visits|
  {
    if visits != [] {
      AtLevelNone(visits[1..], level);
    }
  }

  /** Below the depth bound, the loop over a work list fetches exactly the
      listed txids at its own level, in list order. */
  lemma {:induction false} DigAllOrder(get: string -> Option<Tx>, ids: seq<string>, level: int, maxLevel: int, t: Tracker)
    requires level < maxLevel
    ensures AtLevel(DigAll(get, ids, level, maxLevel, t).visits, level) == ids
    decreases |ids|
  {
    if ids != [] {
      var first := Dig(get, ids[0], level, maxLevel, t);
      var rest := DigAll(get, ids[1..], level, maxLevel, first.tracker);
      assert DigAll(get, ids, level, maxLevel, t).visits == first.visits + rest.visits;
      DigAllOrder(get, ids[1..], level, maxLevel, first.tracker);
      OrderStep(first.visits, rest.visits, ids[0], ids[1..], level);
      assert ids == [ids[0]] + ids[1..];
    }
  }

  /** A dig that starts at `level` and goes only deeper, followed by the
      rest of the loop, adds its own txid in front of the loop's list. */
  lemma OrderStep(first: seq<Visit>, rest: seq<Visit>, id: string, ids: seq<string>, level: int)
    requires first != [] && first[0] == Visit(id, level)
    requires forall k :: 1 <= k < |first| ==> level < first[k].level
    requires AtLevel(rest, level) == ids
    ensures AtLevel(first + rest, level) == [id] + ids
  {
    AtLevelConcat(first, rest, level);
    var tail := first[1..];
    assert first == [Visit(id, level)] + tail;
    forall k | 0 <= k < |tail| ensures tail[k].level != level {
      assert tail[k] == first[k + 1];
    }
    AtLevelNone(tail, level);
    AtLevelConcat([Visit(id, level)], tail, level);
    assert AtLevel([Visit(id, level)], level) == [id];
  }

  /** Expanding a transaction: its own inputs are registered first, in
      input order; then, if there is room below the bound, its children are
      fetched at the next level exactly in `next_txids` order, and if there
      is not, nothing more is fetched. */
  lemma DigChildren(get: string -> Option<Tx>, txid: string, level: int, maxLevel: int, t: Tracker, inputs: seq<Input>)
    requires level < maxLevel
    requires get(txid).Some? && get(txid).value.vin == Present(inputs)
    ensures var w := Dig(get, txid, level, maxLevel, t);
      && |Sightings(inputs)| <= |w.log|
      && w.log[..|Sightings(inputs)|] == Sightings(inputs)
      && (level + 1 < maxLevel ==> AtLevel(w.visits, level + 1) == NextTxids(inputs))
      && (level + 1 >= maxLevel ==> w.visits == [Visit(txid, level)])
  {
    var log := Sightings(inputs);
    var children := DigAll(get, NextTxids(inputs), level + 1, maxLevel, Replay(t, log));
    var w := Dig(get, txid, level, maxLevel, t);
    assert w.log == log + children.log;
    assert w.visits == [Visit(txid, level)] + children.visits;
    if level + 1 < maxLevel {
      DigAllOrder(get, NextTxids(inputs), level + 1, maxLevel, Replay(t, log));
      AtLevelConcat([Visit(txid, level)], children.visits, level + 1);
    }
  }

  /** The walk's fetch in transaction mode: `get_tx` on the chosen network. */
  function TxGet(http: string -> Attempt, decode: Bytes -> Option<Tx>, network: string): (get: string -> Option<Tx>) {
    id => GetTx(http, decode, network, id)
  }

  /** `tx_mode`: one walk from level 0 with a fresh tracker. */
  function TxMode(http: string -> Attempt, decode: Bytes -> Option<Tx>, network: string, start: string, maxLevel: int): (w: Walk)
    ensures Valid(w.tracker)
    ensures (w.visits == []) <==> maxLevel <= 0
  {
    Dig(TxGet(http, decode, network), start, 0, maxLevel, Fresh)
  }

  /** The tracker a run reports is determined by its registrations alone:
      the two lists are the distinct txids and addresses in first-seen
      order, a string's count is how often it was registered, and only
      registered strings are counted. The registrations are the inputs of
      every fetched transaction, in fetch order. On an unknown network nothing is
      fetched successfully and the tracker stays empty. */
  lemma TxModeReport(http: string -> Attempt, decode: Bytes -> Option<Tx>, network: string, start: string, maxLevel: int)
    ensures var w := TxMode(http, decode, network, start, maxLevel);
      && w.tracker.txids == Dedup(TxidsOf(w.log))
      && w.tracker.addresses == Dedup(AddressesOf(w.log))
      && (forall s :: Count(w.tracker, s) == Occurrences(w.log, s))
      && (forall s :: s in w.tracker.counts <==> Occurrences(w.log, s) > 0)
    ensures var w := TxMode(http, decode, network, start, maxLevel);
      w.log == LogOf(TxGet(http, decode, network), w.visits)
    ensures network != "bitcoin" && network != "testnet" ==>
      TxMode(http, decode, network, start, maxLevel).tracker == Fresh
  {
    var get := TxGet(http, decode, network);
    var w := Dig(get, start, 0, maxLevel, Fresh);
    DigReplaysLog(get, start, 0, maxLevel, Fresh);
    DigLogsVisits(get, start, 0, maxLevel, Fresh);
    FreshReplay(w.log);
    if network != "bitcoin" && network != "testnet" {
      DigStops(get, start, 0, maxLevel, Fresh);
    }
  }

  /** The input edges the walk may follow: `child` is on the work list
      built when `parent` is fetched. */
  function InputEdge(get: string -> Option<Tx>): (edge: (string, string) -> bool) {
    (parent: string, child: string) =>
      && get(parent).Some?
      && get(parent).value.vin.Present?
      && child in NextTxids(get(parent).value.vin.value)
  }

  /** A fetch of a txid on the work list, at the list's level. */
  predicate Listed(v: Visit, ids: seq<string>, level: int) {
    v.level == level && v.txid in ids
  }

  /** The k-th fetch was asked for, along `edge`, by an earlier fetch one
      level up, and is inside that fetch's subtree: every fetch in between
      is deeper than it. So the walk is depth first: a subtree is finished
      before the next sibling starts. */
  ghost predicate Justified(edge: (string, string) -> bool, visits: seq<Visit>, k: int)
    requires 0 <= k < |visits|
  {
    exists j :: 0 <= j < k && visits[j].level == visits[k].level - 1 && edge(visits[j].txid, visits[k].txid) &&
      forall i :: j < i < k ==> visits[i].level > visits[j].level
  }

  /** The walk only follows input edges, depth first: apart from the seed,
      every transaction it fetches is on the work list of a transaction
      fetched earlier, one level up, with only deeper fetches in between. */
  lemma {:induction false} DigFollowsInputs(get: string -> Option<Tx>, txid: string, level: int, maxLevel: int, t: Tracker)
    ensures forall k :: 1 <= k < |Dig(get, txid, level, maxLevel, t).visits| ==>
      Justified(InputEdge(get), Dig(get, txid, level, maxLevel, t).visits, k)
    decreases maxLevel - level + 1, 0
  {
    var w := Dig(get, txid, level, maxLevel, t);
    if level < maxLevel && get(txid).Some? && get(txid).value.vin.Present? {
      var inputs := get(txid).value.vin.value;
      var log := Sightings(inputs);
      var children := DigAll(get, NextTxids(inputs), level + 1, maxLevel, Replay(t, log));
      DigAllFollowsInputs(get, NextTxids(inputs), level + 1, maxLevel, Replay(t, log));
      assert w.visits == [Visit(txid, level)] + children.visits;
      assert forall c :: 0 <= c < |children.visits| ==> children.visits[c].level > level;
      PrependParent(InputEdge(get), Visit(txid, level), children.visits, NextTxids(inputs));
    }
  }

  /** The input edges of a small history: r spends a and b, a spends c,
      b spends d, and c spends e. */
  function SmallTree(parent: string, child: string): (spends: bool) {
    (parent, child) in {("r", "a"), ("r", "b"), ("a", "c"), ("b", "d"), ("c", "e")}
  }

  /** On that history, the breadth-first order r, a, b, c, d, e is not a
      walk: c is fetched after a's sibling b, so nothing justifies it. The
      depth-first order r, a, c, e, b, d has every fetch justified. */
  lemma BreadthFirstRejected()
    ensures !Justified(SmallTree, [Visit("r", 0), Visit("a", 1), Visit("b", 1), Visit("c", 2), Visit("d", 2), Visit("e", 3)], 3)
    ensures forall k :: 1 <= k < 6 ==>
      Justified(SmallTree, [Visit("r", 0), Visit("a", 1), Visit("c", 2), Visit("e", 3), Visit("b", 1), Visit("d", 2)], k)
  {
    var dfs := [Visit("r", 0), Visit("a", 1), Visit("c", 2), Visit("e", 3), Visit("b", 1), Visit("d", 2)];
    assert SmallTree("r", "a") && SmallTree("a", "c") && SmallTree("c", "e") && SmallTree("r", "b") && SmallTree("b", "d");
    assert dfs[0].level == dfs[1].level - 1;
    assert dfs[1].level == dfs[2].level - 1;
    assert dfs[2].level == dfs[3].level - 1;
    assert dfs[0].level == dfs[4].level - 1;
    assert dfs[4].level == dfs[5].level - 1;
    var bfs := [Visit("r", 0), Visit("a", 1), Visit("b", 1), Visit("c", 2), Visit("d", 2), Visit("e", 3)];
    assert !SmallTree("b", "c");
    forall j | 0 <= j < 3 && bfs[j].level == bfs[3].level - 1 && SmallTree(bfs[j].txid, bfs[3].txid)
      ensures bfs[2].level <= bfs[j].level && j < 2
    {
      assert j == 1;
    }
  }

  /** Putting the parent's fetch in front of its children's loop justifies
      every fetch of that loop. */
  lemma PrependParent(edge: (string, string) -> bool, parent: Visit, cs: seq<Visit>, ids: seq<string>)
    requires forall x :: x in ids ==> edge(parent.txid, x)
    requires forall c :: 0 <= c < |cs| ==> cs[c].level > parent.level
    requires forall c :: 0 <= c < |cs| ==> Listed(cs[c], ids, parent.level + 1) || Justified(edge, cs, c)
    ensures forall k :: 1 <= k < |[parent] + cs| ==> Justified(edge, [parent] + cs, k)
  {
    forall k | 1 <= k < |[parent] + cs| ensures Justified(edge, [parent] + cs, k) {
      var c := k - 1;
      assert Listed(cs[c], ids, parent.level + 1) || Justified(edge, cs, c);
      PrependOne(edge, parent, cs, ids, c);
      assert c + 1 == k;
    }
  }

  /** One fetch of the children's loop, once the parent is in front. */
  lemma PrependOne(edge: (string, string) -> bool, parent: Visit, cs: seq<Visit>, ids: seq<string>, c: int)
    requires 0 <= c < |cs|
    requires forall x :: x in ids ==> edge(parent.txid, x)
    requires forall c :: 0 <= c < |cs| ==> cs[c].level > parent.level
    requires Listed(cs[c], ids, parent.level + 1) || Justified(edge, cs, c)
    ensures Justified(edge, [parent] + cs, c + 1)
  {
    if Listed(cs[c], ids, parent.level + 1) {
      ParentJustifies(edge, parent, cs, ids, c);
    } else {
      ShiftJustified(edge, [parent], cs, c);
    }
  }

  /** A listed child is justified by the parent placed in front of it. */
  lemma ParentJustifies(edge: (string, string) -> bool, parent: Visit, cs: seq<Visit>, ids: seq<string>, c: int)
    requires 0 <= c < |cs|
    requires forall x :: x in ids ==> edge(parent.txid, x)
    requires forall c :: 0 <= c < |cs| ==> cs[c].level > parent.level
    requires Listed(cs[c], ids, parent.level + 1)
    ensures Justified(edge, [parent] + cs, c + 1)
  {
    var vs := [parent] + cs;
    assert vs[0] == parent && vs[c + 1] == cs[c];
    assert edge(vs[0].txid, vs[c + 1].txid);
    assert vs[0].level == vs[c + 1].level - 1;
    assert forall i :: 0 < i < c + 1 ==> vs[i] == cs[i - 1];
  }

  /** A justified fetch stays justified when fetches are put in front. */
  lemma ShiftJustified(edge: (string, string) -> bool, pre: seq<Visit>, cs: seq<Visit>, c: int)
    requires 0 <= c < |cs|
    requires Justified(edge, cs, c)
    ensures Justified(edge, pre + cs, |pre| + c)
  {
    var j :| 0 <= j < c && cs[j].level == cs[c].level - 1 && edge(cs[j].txid, cs[c].txid) &&
      forall i :: j < i < c ==> cs[i].level > cs[j].level;
    var vs := pre + cs;
    assert vs[|pre| + j] == cs[j] && vs[|pre| + c] == cs[c];
    assert vs[|pre| + j].level == vs[|pre| + c].level - 1 && edge(vs[|pre| + j].txid, vs[|pre| + c].txid);
    assert forall i :: |pre| + j < i < |pre| + c ==> vs[i] == cs[i - |pre|];
  }

  /** A justified fetch stays justified when fetches are put after it. */
  lemma ExtendJustified(edge: (string, string) -> bool, first: seq<Visit>, rest: seq<Visit>, k: int)
    requires 0 <= k < |first|
    requires Justified(edge, first, k)
    ensures Justified(edge, first + rest, k)
  {
    var j :| 0 <= j < k && first[j].level == first[k].level - 1 && edge(first[j].txid, first[k].txid) &&
      forall i :: j < i < k ==> first[i].level > first[j].level;
    var vs := first + rest;
    assert vs[j] == first[j] && vs[k] == first[k];
    assert forall i :: j < i < k ==> vs[i] == first[i];
  }

  /** In the loop over a work list at `level`, each fetch is either of a
      listed txid at that level or asked for by an earlier fetch of the
      same loop, one level up. */
  lemma {:induction false} DigAllFollowsInputs(get: string -> Option<Tx>, ids: seq<string>, level: int, maxLevel: int, t: Tracker)
    ensures forall k :: 0 <= k < |DigAll(get, ids, level, maxLevel, t).visits| ==>
      Listed(DigAll(get, ids, level, maxLevel, t).visits[k], ids, level) ||
      Justified(InputEdge(get), DigAll(get, ids, level, maxLevel, t).visits, k)
    decreases maxLevel - level + 1, |ids|
  {
    if ids != [] {
      var first := Dig(get, ids[0], level, maxLevel, t);
      var rest := DigAll(get, ids[1..], level, maxLevel, first.tracker);
      DigFollowsInputs(get, ids[0], level, maxLevel, t);
      DigAllFollowsInputs(get, ids[1..], level, maxLevel, first.tracker);
      assert DigAll(get, ids, level, maxLevel, t).visits == first.visits + rest.visits;
      ConcatLoop(InputEdge(get), first.visits, rest.visits, ids, level);
    }
  }

  /** The loop's first dig followed by the rest of the loop keeps every
      fetch listed or justified. */
  lemma ConcatLoop(edge: (string, string) -> bool, first: seq<Visit>, rest: seq<Visit>, ids: seq<string>, level: int)
    requires ids != []
    requires first != [] ==> first[0] == Visit(ids[0], level)
    requires forall k :: 1 <= k < |first| ==> Justified(edge, first, k)
    requires forall c :: 0 <= c < |rest| ==> Listed(rest[c], ids[1..], level) || Justified(edge, rest, c)
    ensures forall k :: 0 <= k < |first + rest| ==> Listed((first + rest)[k], ids, level) || Justified(edge, first + rest, k)
  {
    LoopHead(edge, first, rest, ids, level);
    LoopTail(edge, first, rest, ids, level);
  }

  lemma LoopHead(edge: (string, string) -> bool, first: seq<Visit>, rest: seq<Visit>, ids: seq<string>, level: int)
    requires ids != []
    requires first != [] ==> first[0] == Visit(ids[0], level)
    requires forall k :: 1 <= k < |first| ==> Justified(edge, first, k)
    ensures forall k :: 0 <= k < |first| ==> Listed((first + rest)[k], ids, level) || Justified(edge, first + rest, k)
  {
    forall k | 0 <= k < |first| ensures Listed((first + rest)[k], ids, level) || Justified(edge, first + rest, k) {
      if k == 0 {
        assert (first + rest)[0] == first[0];
        assert ids[0] in ids;
      } else {
        ExtendJustified(edge, first, rest, k);
      }
    }
  }

  lemma LoopTail(edge: (string, string) -> bool, first: seq<Visit>, rest: seq<Visit>, ids: seq<string>, level: int)
    requires ids != []
    requires forall c :: 0 <= c < |rest| ==> Listed(rest[c], ids[1..], level) || Justified(edge, rest, c)
    ensures forall k :: |first| <= k < |first + rest| ==> Listed((first + rest)[k], ids, level) || Justified(edge, first + rest, k)
  {
    forall k | |first| <= k < |first + rest| ensures Listed((first + rest)[k], ids, level) || Justified(edge, first + rest, k) {
      var c := k - |first|;
      assert (first + rest)[k] == rest[c];
      if Listed(rest[c], ids[1..], level) {
        assert forall x :: x in ids[1..] ==> x in ids;
      } else {
        ShiftJustified(edge, first, rest, c);
      }
    }
  }

  /** The work list built when a txid is fetched: `next_txids` of its
      input list, and nothing when it is missing or has no input list. */
  function WorkList(get: string -> Option<Tx>): (kids: string -> seq<string>) {
    txid => if get(txid).Some? && get(txid).value.vin.Present? then NextTxids(get(txid).value.vin.value) else []
  }

  /** The k-th fetch was followed up: when there is room below the bound,
      every txid on its work list is fetched later, one level down. */
  ghost predicate Expanded(kids: string -> seq<string>, visits: seq<Visit>, maxLevel: int, k: int)
    requires 0 <= k < |visits|
  {
    visits[k].level + 1 < maxLevel ==>
      forall id :: id in kids(visits[k].txid) ==> Visit(id, visits[k].level + 1) in visits[k + 1..]
  }

  /** Every fetch in `visits` was followed up. */
  ghost predicate AllExpanded(kids: string -> seq<string>, visits: seq<Visit>, maxLevel: int) {
    forall k :: 0 <= k < |visits| ==> Expanded(kids, visits, maxLevel, k)
  }

  /** The walk goes all the way down: every transaction it fetches above
      the last level has each of its `next_txids` fetched after it, at the
      next level. With `DigFollowsInputs` this says the walk fetches exactly
      the transactions reachable along input edges within the bound. */
  lemma {:induction false} DigExpandsInputs(get: string -> Option<Tx>, txid: string, level: int, maxLevel: int, t: Tracker)
    ensures AllExpanded(WorkList(get), Dig(get, txid, level, maxLevel, t).visits, maxLevel)
    decreases maxLevel - level + 1, 0, 1
  {
    if level < maxLevel {
      if get(txid).Some? && get(txid).value.vin.Present? {
        ParentExpanded(get, txid, level, maxLevel, t, get(txid).value.vin.value);
      } else {
        assert Dig(get, txid, level, maxLevel, t).visits == [Visit(txid, level)];
        LeafExpanded(WorkList(get), Visit(txid, level), maxLevel);
      }
    }
  }

  /** A fetched transaction with an input list: its children's loop digs
      its whole work list, one level down. */
  lemma {:induction false} ParentExpanded(get: string -> Option<Tx>, txid: string, level: int, maxLevel: int, t: Tracker, inputs: seq<Input>)
    requires level < maxLevel && get(txid).Some? && get(txid).value.vin == Present(inputs)
    ensures AllExpanded(WorkList(get), Dig(get, txid, level, maxLevel, t).visits, maxLevel)
    decreases maxLevel - level + 1, 0, 0
  {
    var log := Sightings(inputs);
    var children := DigAll(get, NextTxids(inputs), level + 1, maxLevel, Replay(t, log));
    DigAllExpandsInputs(get, NextTxids(inputs), level + 1, maxLevel, Replay(t, log));
    if level + 1 < maxLevel {
      DigAllOrder(get, NextTxids(inputs), level + 1, maxLevel, Replay(t, log));
    }
    var w := Dig(get, txid, level, maxLevel, t);
    assert w.visits == [Visit(txid, level)] + children.visits;
    var kids := WorkList(get);
    assert kids(txid) == NextTxids(inputs);
    PrependExpanded(kids, Visit(txid, level), children.visits, w.visits, maxLevel);
  }

  /** A fetch with an empty work list is followed up by nothing. */
  lemma LeafExpanded(kids: string -> seq<string>, v: Visit, maxLevel: int)
    requires kids(v.txid) == []
    ensures AllExpanded(kids, [v], maxLevel)
  {
  }

  lemma {:induction false} DigAllExpandsInputs(get: string -> Option<Tx>, ids: seq<string>, level: int, maxLevel: int, t: Tracker)
    ensures AllExpanded(WorkList(get), DigAll(get, ids, level, maxLevel, t).visits, maxLevel)
    decreases maxLevel - level + 1, |ids|, 1
  {
    if ids != [] {
      var first := Dig(get, ids[0], level, maxLevel, t);
      var rest := DigAll(get, ids[1..], level, maxLevel, first.tracker);
      DigExpandsInputs(get, ids[0], level, maxLevel, t);
      DigAllExpandsInputs(get, ids[1..], level, maxLevel, first.tracker);
      var w := DigAll(get, ids, level, maxLevel, t);
      assert w.visits == first.visits + rest.visits;
      ConcatExpanded(WorkList(get), first.visits, rest.visits, w.visits, maxLevel);
    }
  }

  /** A txid listed at a level in `AtLevel` was fetched at that level. */
  lemma {:induction false} AtLevelMember(visits: seq<Visit>, level: int, id: string)
    requires id in AtLevel(visits, level)
    ensures Visit(id, level) in visits
    decreases |visits|
  {
    if visits[0] != Visit(id, level) {
      assert id in AtLevel(visits[1..], level);
      AtLevelMember(visits[1..], level, id);
      assert visits == [visits[0]] + visits[1..];
    }
  }

  /** A parent whose children's loop fetches its work list at the next
      level is followed up by that loop. */
  lemma HeadExpanded(kids: string -> seq<string>, parent: Visit, cs: seq<Visit>, vs: seq<Visit>, maxLevel: int)
    requires vs == [parent] + cs
    requires parent.level + 1 < maxLevel ==> AtLevel(cs, parent.level + 1) == kids(parent.txid)
    ensures Expanded(kids, vs, maxLevel, 0)
  {
    assert vs[0] == parent && vs[1..] == cs;
    if parent.level + 1 < maxLevel {
      forall id | id in kids(parent.txid) ensures Visit(id, parent.level + 1) in cs {
        AtLevelMember(cs, parent.level + 1, id);
      }
    }
  }

  /** A followed-up fetch stays followed up when fetches are put in front. */
  lemma ShiftExpanded(kids: string -> seq<string>, pre: seq<Visit>, cs: seq<Visit>, vs: seq<Visit>, maxLevel: int, c: int)
    requires vs == pre + cs
    requires 0 <= c < |cs|
    requires Expanded(kids, cs, maxLevel, c)
    ensures Expanded(kids, vs, maxLevel, |pre| + c)
  {
    assert vs[|pre| + c] == cs[c];
    assert vs[|pre| + c + 1..] == cs[c + 1..];
  }

  /** A followed-up fetch stays followed up when fetches are put after it. */
  lemma ExtendExpanded(kids: string -> seq<string>, first: seq<Visit>, rest: seq<Visit>, vs: seq<Visit>, maxLevel: int, k: int)
    requires vs == first + rest
    requires 0 <= k < |first|
    requires Expanded(kids, first, maxLevel, k)
    ensures Expanded(kids, vs, maxLevel, k)
  {
    assert vs[k] == first[k];
    assert vs[k + 1..] == first[k + 1..] + rest;
  }

  /** A parent in front of its followed-up children's loop. */
  lemma PrependExpanded(kids: string -> seq<string>, parent: Visit, cs: seq<Visit>, vs: seq<Visit>, maxLevel: int)
    requires vs == [parent] + cs
    requires parent.level + 1 < maxLevel ==> AtLevel(cs, parent.level + 1) == kids(parent.txid)
    requires AllExpanded(kids, cs, maxLevel)
    ensures AllExpanded(kids, vs, maxLevel)
  {
    forall k | 0 <= k < |vs| ensures Expanded(kids, vs, maxLevel, k) {
      if k == 0 {
        HeadExpanded(kids, parent, cs, vs, maxLevel);
      } else {
        var c := k - 1;
        ShiftExpanded(kids, [parent], cs, vs, maxLevel, c);
        assert |[parent]| + c == k;
      }
    }
  }

  /** Two followed-up walks one after the other. */
  lemma ConcatExpanded(kids: string -> seq<string>, first: seq<Visit>, rest: seq<Visit>, vs: seq<Visit>, maxLevel: int)
    requires vs == first + rest
    requires AllExpanded(kids, first, maxLevel)
    requires AllExpanded(kids, rest, maxLevel)
    ensures AllExpanded(kids, vs, maxLevel)
  {
    forall k | 0 <= k < |vs| ensures Expanded(kids, vs, maxLevel, k) {
      if k < |first| {
        ExtendExpanded(kids, first, rest, vs, maxLevel, k);
      } else {
        var c := k - |first|;
        ShiftExpanded(kids, first, rest, vs, maxLevel, c);
        assert |first| + c == k;
      }
    }
  }

  /** The registrations a fetch of `txid` makes: the sightings of its
      inputs, in order, and none when it is missing or has no input list. */
  function Expansion(get: string -> Option<Tx>, txid: string): (log: seq<Sighting>)
    ensures log != [] ==> get(txid).Some? && get(txid).value.vin.Present?
  {
    if get(txid).Some? && get(txid).value.vin.Present? then Sightings(get(txid).value.vin.value) else []
  }

  /** The registrations of a sequence of fetches, in fetch order. */
  function LogOf(get: string -> Option<Tx>, visits: seq<Visit>): (log: seq<Sighting>) {
    if visits == [] then [] else Expansion(get, visits[0].txid) + LogOf(get, visits[1..])
  }

  lemma {:induction false} LogOfConcat(get: string -> Option<Tx>, a: seq<Visit>, b: seq<Visit>)
    ensures LogOf(get, a + b) == LogOf(get, a) + LogOf(get, b)
    decreases |a|
  {
    if a == [] {
      assert a + b == b;
    } else {
      assert (a + b)[0] == a[0] && (a + b)[1..] == a[1..] + b;
      LogOfConcat(get, a[1..], b);
    }
  }

  /** Every fetched transaction's inputs are registered, and nothing else
      is: the walk's log is the fetched transactions' input sightings, in
      fetch order, at every depth. */
  lemma {:induction false} DigLogsVisits(get: string -> Option<Tx>, txid: string, level: int, maxLevel: int, t: Tracker)
    ensures var w := Dig(get, txid, level, maxLevel, t); w.log == LogOf(get, w.visits)
    decreases maxLevel - level + 1, 0
  {
    var w := Dig(get, txid, level, maxLevel, t);
    if level < maxLevel {
      if get(txid).Some? && get(txid).value.vin.Present? {
        var inputs := get(txid).value.vin.value;
        var log := Sightings(inputs);
        var children := DigAll(get, NextTxids(inputs), level + 1, maxLevel, Replay(t, log));
        DigAllLogsVisits(get, NextTxids(inputs), level + 1, maxLevel, Replay(t, log));
        assert w.visits == [Visit(txid, level)] + children.visits;
        assert w.visits[1..] == children.visits;
      } else {
        assert w.visits == [Visit(txid, level)];
        assert w.visits[1..] == [];
      }
    }
  }

  lemma {:induction false} DigAllLogsVisits(get: string -> Option<Tx>, ids: seq<string>, level: int, maxLevel: int, t: Tracker)
    ensures var w := DigAll(get, ids, level, maxLevel, t); w.log == LogOf(get, w.visits)
    decreases maxLevel - level + 1, |ids|
  {
    if ids != [] {
      var first := Dig(get, ids[0], level, maxLevel, t);
      var rest := DigAll(get, ids[1..], level, maxLevel, first.tracker);
      DigLogsVisits(get, ids[0], level, maxLevel, t);
      DigAllLogsVisits(get, ids[1..], level, maxLevel, first.tracker);
      LogOfConcat(get, first.visits, rest.visits);
    }
  }

  /** A fetched transaction the program reads through without raising: it
      is missing, has no input list, or none of its inputs raises. */
  predicate ReadsThrough(get: string -> Option<Tx>, txid: string) {
    match get(txid)
    case None => true
    case Some(tx) =>
      match tx.vin
      case Present(inputs) => forall k :: 0 <= k < |inputs| ==> InputFault(inputs[k]).None?
      case _ => true
  }

  /** Every fetch in `visits` reads through. */
  predicate AllReadThrough(get: string -> Option<Tx>, visits: seq<Visit>) {
    forall k :: 0 <= k < |visits| ==> ReadsThrough(get, visits[k].txid)
  }

  lemma AllReadThroughConcat(get: string -> Option<Tx>, a: seq<Visit>, b: seq<Visit>)
    ensures AllReadThrough(get, a + b) <==> AllReadThrough(get, a) && AllReadThrough(get, b)
  {
    if AllReadThrough(get, a + b) {
      forall k | 0 <= k < |a| ensures ReadsThrough(get, a[k].txid) {
        assert (a + b)[k] == a[k];
      }
      forall k | 0 <= k < |b| ensures ReadsThrough(get, b[k].txid) {
        assert (a + b)[|a| + k] == b[k];
      }
    }
  }

  /** `dig_tx` as the program runs it, where reading an input can raise:
      the exception propagates out of every enclosing call and ends the
      run, so the result is the failure instead of a walk. */
  function DigAsWritten(get: string -> Option<Tx>, txid: string, level: int, maxLevel: int, t: Tracker): (r: Result<Walk>)
    decreases maxLevel - level + 1, 0
  {
    if level >= maxLevel then Success(Walk(t, [], []))
    else
      match get(txid)
      case None => Success(Walk(t, [Visit(txid, level)], []))
      case Some(tx) =>
        match tx.vin
        case Present(inputs) =>
          (match ExpandAsWritten(inputs)
           case Failure(e) => Failure(e)
           case Success(log) =>
             match DigAllAsWritten(get, NextTxids(inputs), level + 1, maxLevel, Replay(t, log))
             case Failure(e) => Failure(e)
             case Success(children) =>
               Success(Walk(children.tracker, [Visit(txid, level)] + children.visits, log + children.log)))
        case _ => Success(Walk(t, [Visit(txid, level)], []))
  }

  function DigAllAsWritten(get: string -> Option<Tx>, ids: seq<string>, level: int, maxLevel: int, t: Tracker): (r: Result<Walk>)
    decreases maxLevel - level + 1, |ids|
  {
    if ids == [] then Success(Walk(t, [], []))
    else
      match DigAsWritten(get, ids[0], level, maxLevel, t)
      case Failure(e) => Failure(e)
      case Success(first) =>
        match DigAllAsWritten(get, ids[1..], level, maxLevel, first.tracker)
        case Failure(e) => Failure(e)
        case Success(rest) => Success(Walk(rest.tracker, first.visits + rest.visits, first.log + rest.log))
  }

  /** The program's walk ends normally exactly when every transaction the
      model's walk fetches reads through, and then it is the model's walk. */
  lemma {:induction false} DigAsWrittenAgrees(get: string -> Option<Tx>, txid: string, level: int, maxLevel: int, t: Tracker)
    ensures var w := Dig(get, txid, level, maxLevel, t);
      && (DigAsWritten(get, txid, level, maxLevel, t).Success? <==> AllReadThrough(get, w.visits))
      && (DigAsWritten(get, txid, level, maxLevel, t).Success? ==> DigAsWritten(get, txid, level, maxLevel, t).value == w)
    decreases maxLevel - level + 1, 0, 1
  {
    if level < maxLevel && get(txid).Some? && get(txid).value.vin.Present? {
      var inputs := get(txid).value.vin.value;
      if ExpandAsWritten(inputs).Failure? {
        ExpansionRaises(get, txid, level, maxLevel, t, inputs);
      } else {
        ExpansionReadsThrough(get, txid, level, maxLevel, t, inputs);
      }
    } else if level < maxLevel {
      assert Dig(get, txid, level, maxLevel, t).visits == [Visit(txid, level)];
      assert ReadsThrough(get, txid);
    }
  }

  /** A transaction with an input that raises ends the program's walk. */
  lemma ExpansionRaises(get: string -> Option<Tx>, txid: string, level: int, maxLevel: int, t: Tracker, inputs: seq<Input>)
    requires level < maxLevel && get(txid).Some? && get(txid).value.vin == Present(inputs)
    requires ExpandAsWritten(inputs).Failure?
    ensures DigAsWritten(get, txid, level, maxLevel, t).Failure?
    ensures !AllReadThrough(get, Dig(get, txid, level, maxLevel, t).visits)
  {
    var w := Dig(get, txid, level, maxLevel, t);
    assert w.visits[0] == Visit(txid, level);
    assert !ReadsThrough(get, w.visits[0].txid);
  }

  /** A transaction whose inputs all read through: the program goes on to
      the children's loop, which agrees with the model's. */
  lemma {:induction false} ExpansionReadsThrough(get: string -> Option<Tx>, txid: string, level: int, maxLevel: int, t: Tracker, inputs: seq<Input>)
    requires level < maxLevel && get(txid).Some? && get(txid).value.vin == Present(inputs)
    requires ExpandAsWritten(inputs).Success?
    ensures var w := Dig(get, txid, level, maxLevel, t);
      && (DigAsWritten(get, txid, level, maxLevel, t).Success? <==> AllReadThrough(get, w.visits))
      && (DigAsWritten(get, txid, level, maxLevel, t).Success? ==> DigAsWritten(get, txid, level, maxLevel, t).value == w)
    decreases maxLevel - level + 1, 0, 0
  {
    DigAllAsWrittenAgrees(get, NextTxids(inputs), level + 1, maxLevel, Replay(t, Sightings(inputs)));
    var w := Dig(get, txid, level, maxLevel, t);
    var r := DigAsWritten(get, txid, level, maxLevel, t);
    var log := Sightings(inputs);
    assert ExpandAsWritten(inputs).value == log;
    var children := DigAll(get, NextTxids(inputs), level + 1, maxLevel, Replay(t, log));
    var rest := DigAllAsWritten(get, NextTxids(inputs), level + 1, maxLevel, Replay(t, log));
    assert w == Walk(children.tracker, [Visit(txid, level)] + children.visits, log + children.log);
    AllReadThroughConcat(get, [Visit(txid, level)], children.visits);
    assert AllReadThrough(get, [Visit(txid, level)]);
    if rest.Success? {
      assert r == Success(Walk(rest.value.tracker, [Visit(txid, level)] + rest.value.visits, log + rest.value.log));
    } else {
      assert r == Failure(rest.error);
    }
  }

  lemma {:induction false} DigAllAsWrittenAgrees(get: string -> Option<Tx>, ids: seq<string>, level: int, maxLevel: int, t: Tracker)
    ensures var w := DigAll(get, ids, level, maxLevel, t);
      && (DigAllAsWritten(get, ids, level, maxLevel, t).Success? <==> AllReadThrough(get, w.visits))
      && (DigAllAsWritten(get, ids, level, maxLevel, t).Success? ==> DigAllAsWritten(get, ids, level, maxLevel, t).value == w)
    decreases maxLevel - level + 1, |ids|, 1
  {
    if ids != [] {
      var first := Dig(get, ids[0], level, maxLevel, t);
      var rest := DigAll(get, ids[1..], level, maxLevel, first.tracker);
      DigAsWrittenAgrees(get, ids[0], level, maxLevel, t);
      DigAllAsWrittenAgrees(get, ids[1..], level, maxLevel, first.tracker);
      AllReadThroughConcat(get, first.visits, rest.visits);
    }
  }

  /** `tx_mode` as the program runs it: the report exists exactly when no
      fetched transaction raises, and it is then the model's. */
  function TxModeAsWritten(http: string -> Attempt, decode: Bytes -> Option<Tx>, network: string, start: string, maxLevel: int): (r: Result<Walk>)
    ensures r.Success? <==> AllReadThrough(TxGet(http, decode, network), TxMode(http, decode, network, start, maxLevel).visits)
    ensures r.Success? ==> r.value == TxMode(http, decode, network, start, maxLevel)
  {
    DigAsWrittenAgrees(TxGet(http, decode, network), start, 0, maxLevel, Fresh);
    DigAsWritten(TxGet(http, decode, network), start, 0, maxLevel, Fresh)
  }

  /** A network that knows one transaction, "a", whose only input is a
      coinbase input. */
  function CoinbaseOnly(id: string): (tx: Option<Tx>) {
    if id == "a" then Some(Tx(Present([Input(Present("00"), Null)]))) else None
  }

  /** A one-level walk over that transaction: the model records the
      placeholder address, while the program raises. */
  lemma CoinbaseWalkAborts()
    ensures DigAsWritten(CoinbaseOnly, "a", 0, 1, Fresh).Failure?
    ensures Dig(CoinbaseOnly, "a", 0, 1, Fresh).tracker.addresses == [Unresolved]
  {
    var inputs := [Input(Present("00"), Null)];
    CoinbaseExpansion(inputs);
    CoinbaseProgramRaises(inputs);
    CoinbaseModelRecords(inputs);
  }

  lemma CoinbaseProgramRaises(inputs: seq<Input>)
    requires inputs == [Input(Present("00"), Null)]
    requires ExpandAsWritten(inputs).Failure?
    ensures DigAsWritten(CoinbaseOnly, "a", 0, 1, Fresh).Failure?
  {
    assert CoinbaseOnly("a") == Some(Tx(Present(inputs)));
    assert DigAsWritten(CoinbaseOnly, "a", 0, 1, Fresh) == Failure(ExpandAsWritten(inputs).error);
  }

  lemma CoinbaseModelRecords(inputs: seq<Input>)
    requires inputs == [Input(Present("00"), Null)]
    requires Sightings(inputs) == [TxidSeen("00"), AddressSeen(Unresolved)]
    requires |NextTxids(inputs)| == 1
    ensures Dig(CoinbaseOnly, "a", 0, 1, Fresh).tracker.addresses == [Unresolved]
  {
    assert CoinbaseOnly("a") == Some(Tx(Present(inputs)));
    var log := Sightings(inputs);
    var t1 := Replay(Fresh, log);
    CoinbaseReplay(log);
    var ids := NextTxids(inputs);
    assert ids[1..] == [];
    var first := Dig(CoinbaseOnly, ids[0], 1, 1, t1);
    assert first == Walk(t1, [], []);
    var rest := DigAll(CoinbaseOnly, ids[1..], 1, 1, first.tracker);
    assert rest == Walk(t1, [], []);
    var children := DigAll(CoinbaseOnly, ids, 1, 1, t1);
    assert children.tracker == t1;
    assert Dig(CoinbaseOnly, "a", 0, 1, Fresh).tracker == children.tracker;
  }

  lemma CoinbaseExpansion(inputs: seq<Input>)
    requires inputs == [Input(Present("00"), Null)]
    ensures ExpandAsWritten(inputs).Failure?
    ensures Sightings(inputs) == [TxidSeen("00"), AddressSeen(Unresolved)]
    ensures |NextTxids(inputs)| == 1
  {
    assert InputFault(inputs[0]).Some?;
    assert inputs[1..] == [];
    assert TruthyTxids(inputs) == ["00"];
    DedupSpec(TruthyTxids(inputs));
  }

  lemma CoinbaseReplay(log: seq<Sighting>)
    requires log == [TxidSeen("00"), AddressSeen(Unresolved)]
    ensures Replay(Fresh, log).addresses == [Unresolved]
  {
    var t1 := RegisterTxid(Fresh, "00");
    var t2 := RegisterAddress(t1, Unresolved);
    assert t1.addresses == [];
    assert t2.addresses == [Unresolved];
    assert log[1..][1..] == [];
    assert Replay(t2, log[1..][1..]) == t2;
    assert Replay(t1, log[1..]) == t2;
  }
}

=== FILE: fetch.dfy ===
/** The retrying GET used by address mode (`fetch_with_rotating`).

    The network is a stream `responses`: `responses(k)` is what the k-th
    request for this URL yields. Which of the four client identities sends
    a request, and the half-second pause after a failed one, do not change
    what the function returns and are not modelled. */
module Fetch {
  import opened Base

  /** What one request produces: an HTTP status with its body, or an
      exception raised by the transport. */
  datatype Attempt = Response(status: int, body: Bytes) | Raised(reason: string)

  /** Only a status-200 response ends the retry loop. */
  predicate IsOk(a: Attempt) {
    a.Response? && a.status == 200
  }

  /** The payload handed back (None once the budget is spent) and how many
      requests were sent to obtain it. */
  datatype Fetched = Fetched(data: Option<Bytes>, requests: nat)

  /** The attempt budget used by every caller in address mode. */
  const DefaultAttempts := 4

  /** `fetch_with_rotating(url, max_attempts)`. */
  function FetchWithRotating(responses: nat -> Attempt, maxAttempts: int): (r: Fetched)
    ensures r.requests <= if maxAttempts < 0 then 0 else maxAttempts
    ensures r.data.Some? ==>
      && r.requests >= 1
      && responses(r.requests - 1) == Response(200, r.data.value)
      && forall k :: 0 <= k < r.requests - 1 ==> !IsOk(responses(k))
    ensures r.data.None? ==>
      && r.requests == (if maxAttempts < 0 then 0 else maxAttempts)
      && forall k :: 0 <= k < r.requests ==> !IsOk(responses(k))
  {
    Rotate(responses, 0, maxAttempts)
  }

  /** The retry loop from attempt number `attempt` on. */
  function Rotate(responses: nat -> Attempt, attempt: nat, maxAttempts: int): (r: Fetched)
    requires forall k :: 0 <= k < attempt ==> !IsOk(responses(k))
    ensures attempt <= r.requests <= if maxAttempts < attempt then attempt else maxAttempts
    ensures r.data.Some? ==>
      && r.requests >= 1
      && responses(r.requests - 1) == Response(200, r.data.value)
      && forall k :: 0 <= k < r.requests - 1 ==> !IsOk(responses(k))
    ensures r.data.None? ==>
      && r.requests == (if maxAttempts < attempt then attempt else maxAttempts)
      && forall k :: 0 <= k < r.requests ==> !IsOk(responses(k))
    decreases maxAttempts - attempt
  {
    if attempt >= maxAttempts then Fetched(None, attempt)
    else if IsOk(responses(attempt)) then Fetched(Some(responses(attempt).body), attempt + 1)
    else Rotate(responses, attempt + 1, maxAttempts)
  }

  /** A payload comes back exactly when one of the first `maxAttempts`
      requests succeeds, and then it is the body of the first such one. */
  lemma FetchSucceedsIffSomeAttemptOk(responses: nat -> Attempt, maxAttempts: int)
    ensures FetchWithRotating(responses, maxAttempts).data.Some? <==>
      exists k :: 0 <= k < maxAttempts && IsOk(responses(k))
    ensures forall k ::
      (0 <= k < maxAttempts && IsOk(responses(k)) && forall j :: 0 <= j < k ==> !IsOk(responses(j))) ==>
        FetchWithRotating(responses, maxAttempts) == Fetched(Some(responses(k).body), k + 1)
  {
    var r := FetchWithRotating(responses, maxAttempts);
    if r.data.Some? {
      assert IsOk(responses(r.requests - 1));
    }
    forall k | 0 <= k < maxAttempts && IsOk(responses(k)) &&
      (forall j :: 0 <= j < k ==> !IsOk(responses(j)))
      ensures r == Fetched(Some(responses(k).body), k + 1)
    {
      if r.data.Some? {
        assert IsOk(responses(r.requests - 1));
      }
    }
  }
}

=== FILE: ordered.dfy ===
/** Insertion-ordered, duplicate-free sequences: the "append if absent"
    idiom used for both the tracker's lists and the next-level work list. */
module Ordered {

  /** No element occurs twice. */
  predicate NoDup<T(==,!new)>(s: seq<T>) {
    forall i, j :: 0 <= i < j < |s| ==> s[i] != s[j]
  }

  /** Walks `xs` in order and appends each element to `acc` unless it is
      already there. */
  function AppendNew<T(==,!new)>(acc: seq<T>, xs: seq<T>): (r: seq<T>)
    ensures |acc| <= |r| <= |acc| + |xs|
    ensures r[..|acc|] == acc
    ensures forall x :: x in r <==> x in acc || x in xs
    ensures NoDup(acc) ==> NoDup(r)
    decreases |xs|
  {
    if xs == [] then acc
    else AppendNew(if xs[0] in acc then acc else acc + [xs[0]], xs[1..])
  }

  /** The distinct elements of `xs`, kept at their first occurrence. */
  function Dedup<T(==,!new)>(xs: seq<T>): (r: seq<T>) {
    AppendNew([], xs)
  }

  /** Position of the first occurrence of `x` in `xs`. */
  function FirstIndex<T(==,!new)>(xs: seq<T>, x: T): (i: nat)
    requires x in xs
    ensures i < |xs| && xs[i] == x
    ensures x !in xs[..i]
  {
    if xs[0] == x then 0
    else
      assert x in xs[1..] by { var k :| 0 <= k < |xs| && xs[k] == x; assert xs[1..][k - 1] == x; }
      1 + FirstIndex(xs[1..], x)
  }

  /** The elements `AppendNew` adds come from `xs`, were not in `acc`, and
      are laid out in the order of their first occurrence in `xs`. */
  lemma {:induction false} AppendNewOrder<T(!new)>(acc: seq<T>, xs: seq<T>)
    requires NoDup(acc)
    ensures var r := AppendNew(acc, xs);
      forall i :: |acc| <= i < |r| ==> r[i] in xs && r[i] !in acc
    ensures var r := AppendNew(acc, xs);
      forall i, j :: |acc| <= i < j < |r| ==> FirstIndex(xs, r[i]) < FirstIndex(xs, r[j])
    decreases |xs|
  {
    var r := AppendNew(acc, xs);
    if xs != [] {
      var x, ys := xs[0], xs[1..];
      var acc' := if x in acc then acc else acc + [x];
      assert NoDup(acc');
      AppendNewOrder(acc', ys);
      assert r == AppendNew(acc', ys);
      forall i, j | |acc| <= i < j < |r|
        ensures FirstIndex(xs, r[i]) < FirstIndex(xs, r[j])
      {
        if x !in acc {
          assert r[|acc|] == acc'[|acc|] == x;
        }
        if x in acc || i > |acc| {
          assert FirstIndex(ys, r[i]) < FirstIndex(ys, r[j]);
        }
      }
    }
  }

  /** One step of the append-if-absent loop. */
  lemma AppendNewCons<T(!new)>(acc: seq<T>, x: T, xs: seq<T>)
    ensures AppendNew(acc, [x] + xs) == AppendNew(if x in acc then acc else acc + [x], xs)
  {
    assert ([x] + xs)[0] == x && ([x] + xs)[1..] == xs;
  }

  /** Dedup is exactly "the distinct elements in first-occurrence order":
      no repeats, the same elements, and increasing first positions. */
  lemma DedupSpec<T(!new)>(xs: seq<T>)
    ensures NoDup(Dedup(xs))
    ensures forall x :: x in Dedup(xs) <==> x in xs
    ensures forall i, j :: 0 <= i < j < |Dedup(xs)| ==>
      FirstIndex(xs, Dedup(xs)[i]) < FirstIndex(xs, Dedup(xs)[j])
  {
    var empty: seq<T> := [];
    AppendNewOrder(empty, xs);
    assert Dedup(xs) == AppendNew(empty, xs);
  }
}

=== FILE: tracker.dfy ===
/** The bookkeeping shared by the whole transaction walk: two
    insertion-ordered, duplicate-free lists (addresses and txids) and ONE
    counter dictionary keyed by the raw string. Addresses and txids write
    the same counters, so an address spelled like a txid shares its count
    with it, exactly as in the program. */
module Tracking {
  import opened Base
  import opened Ordered

  datatype Tracker = Tracker(addresses: seq<string>, txids: seq<string>, counts: map<string, int>)

  /** The state at the start of a run: both lists empty, no counters. */
  const Fresh := Tracker([], [], map[])

  /** The counter of `s`, 0 when it was never registered. */
  function Count(t: Tracker, s: string): (n: int) {
    if s in t.counts then t.counts[s] else 0
  }

  /** Well-formed trackers: the lists have no repeats, a string has a
      counter exactly when it is in one of the lists, and every counter is
      at least 1. */
  ghost predicate Valid(t: Tracker) {
    && NoDup(t.addresses)
    && NoDup(t.txids)
    && (forall s :: s in t.counts <==> s in t.addresses || s in t.txids)
    && (forall s :: s in t.counts ==> t.counts[s] >= 1)
  }

  /** `u` is a later state of `t`: list entries keep their positions (the
      old lists are prefixes) and no counter went down. */
  ghost predicate Extends(t: Tracker, u: Tracker) {
    && t.addresses <= u.addresses
    && t.txids <= u.txids
    && forall s :: Count(t, s) <= Count(u, s)
  }

  function Bump(counts: map<string, int>, s: string): (r: map<string, int>) {
    counts[s := (if s in counts then counts[s] else 0) + 1]
  }

  /** Registering an input's txid: listed once, counted every time. */
  function RegisterTxid(t: Tracker, id: string): (r: Tracker)
    ensures id in r.txids && r.addresses == t.addresses
    ensures t.txids <= r.txids
    ensures |r.txids| == |t.txids| + (if id in t.txids then 0 else 1)
    ensures Count(r, id) == Count(t, id) + 1
    ensures forall s :: s != id ==> Count(r, s) == Count(t, s)
    ensures Valid(t) ==> Valid(r)
  {
    Tracker(t.addresses, if id in t.txids then t.txids else t.txids + [id], Bump(t.counts, id))
  }

  /** Registering an input's address: the same rule, the same counters. */
  function RegisterAddress(t: Tracker, addr: string): (r: Tracker)
    ensures addr in r.addresses && r.txids == t.txids
    ensures t.addresses <= r.addresses
    ensures |r.addresses| == |t.addresses| + (if addr in t.addresses then 0 else 1)
    ensures Count(r, addr) == Count(t, addr) + 1
    ensures forall s :: s != addr ==> Count(r, s) == Count(t, s)
    ensures Valid(t) ==> Valid(r)
  {
    Tracker(if addr in t.addresses then t.addresses else t.addresses + [addr], t.txids, Bump(t.counts, addr))
  }

  /** One registration, as the walk performs it. */
  datatype Sighting = TxidSeen(txid: string) | AddressSeen(address: string) {
    function Key(): (s: string) {
      match this
      case TxidSeen(id) => id
      case AddressSeen(a) => a
    }
  }

  function Register(t: Tracker, e: Sighting): (r: Tracker) {
    match e
    case TxidSeen(id) => RegisterTxid(t, id)
    case AddressSeen(a) => RegisterAddress(t, a)
  }

  /** Performs the registrations of `log` in order. */
  function Replay(t: Tracker, log: seq<Sighting>): (r: Tracker)
    ensures Extends(t, r)
    ensures Valid(t) ==> Valid(r)
    decreases |log|
  {
    if log == [] then t else Replay(Register(t, log[0]), log[1..])
  }

  /** The txids registered by `log`, in order, repeats kept. */
  function TxidsOf(log: seq<Sighting>): (ids: seq<string>) {
    if log == [] then []
    else (if log[0].TxidSeen? then [log[0].txid] else []) + TxidsOf(log[1..])
  }

  /** The addresses registered by `log`, in order, repeats kept. */
  function AddressesOf(log: seq<Sighting>): (addresses: seq<string>) {
    if log == [] then []
    else (if log[0].AddressSeen? then [log[0].address] else []) + AddressesOf(log[1..])
  }

  /** How many registrations in `log` were of the string `s`, as a txid
      or as an address. */
  function Occurrences(log: seq<Sighting>, s: string): (n: nat) {
    if log == [] then 0
    else (if log[0].Key() == s then 1 else 0) + Occurrences(log[1..], s)
  }

  /** Replaying a log splits into two independent append-if-absent passes,
      one over its txids and one over its addresses, while each counter
      grows by the number of times its string was registered. */
  lemma {:induction false} ReplayMeaning(t: Tracker, log: seq<Sighting>)
    ensures Replay(t, log).txids == AppendNew(t.txids, TxidsOf(log))
    ensures Replay(t, log).addresses == AppendNew(t.addresses, AddressesOf(log))
    ensures forall s :: Count(Replay(t, log), s) == Count(t, s) + Occurrences(log, s)
  {
    ReplayTxids(t, log);
    ReplayAddresses(t, log);
    forall s ensures Count(Replay(t, log), s) == Count(t, s) + Occurrences(log, s) {
      ReplayCount(t, log, s);
    }
  }

  lemma {:induction false} ReplayTxids(t: Tracker, log: seq<Sighting>)
    ensures Replay(t, log).txids == AppendNew(t.txids, TxidsOf(log))
    decreases |log|
  {
    if log != [] {
      var e := log[0];
      ReplayTxids(Register(t, e), log[1..]);
      if e.TxidSeen? {
        AppendNewCons(t.txids, e.txid, TxidsOf(log[1..]));
      } else {
        assert TxidsOf(log) == TxidsOf(log[1..]);
      }
    }
  }

  lemma {:induction false} ReplayAddresses(t: Tracker, log: seq<Sighting>)
    ensures Replay(t, log).addresses == AppendNew(t.addresses, AddressesOf(log))
    decreases |log|
  {
    if log != [] {
      var e := log[0];
      ReplayAddresses(Register(t, e), log[1..]);
      if e.AddressSeen? {
        AppendNewCons(t.addresses, e.address, AddressesOf(log[1..]));
      } else {
        assert AddressesOf(log) == AddressesOf(log[1..]);
      }
    }
  }

  lemma {:induction false} ReplayCount(t: Tracker, log: seq<Sighting>, s: string)
    ensures Count(Replay(t, log), s) == Count(t, s) + Occurrences(log, s)
    decreases |log|
  {
    if log != [] {
      ReplayCount(Register(t, log[0]), log[1..], s);
    }
  }

  /** Two logs one after the other replay as their concatenation. */
  lemma {:induction false} ReplayConcat(t: Tracker, a: seq<Sighting>, b: seq<Sighting>)
    ensures Replay(t, a + b) == Replay(Replay(t, a), b)
    decreases |a|
  {
    if a == [] {
      assert a + b == b;
    } else {
      assert (a + b)[0] == a[0] && (a + b)[1..] == a[1..] + b;
      ReplayConcat(Register(t, a[0]), a[1..], b);
    }
  }

  /** A string is counted exactly when it was registered. */
  lemma {:induction false} OccurrencesPositive(log: seq<Sighting>, s: string)
    ensures Occurrences(log, s) > 0 <==> s in TxidsOf(log) || s in AddressesOf(log)
    decreases |log|
  {
    if log != [] {
      OccurrencesPositive(log[1..], s);
    }
  }

  /** From a fresh start, the tracker is determined by the log alone:
      the lists are the distinct txids and addresses in first-seen order and
      each counter is the number of times its string was registered. */
  lemma FreshReplay(log: seq<Sighting>)
    ensures var r := Replay(Fresh, log);
      && Valid(r)
      && r.txids == Dedup(TxidsOf(log))
      && r.addresses == Dedup(AddressesOf(log))
      && (forall s :: Count(r, s) == Occurrences(log, s))
      && (forall s :: s in r.counts <==> Occurrences(log, s) > 0)
  {
    ReplayMeaning(Fresh, log);
    forall s ensures Occurrences(log, s) > 0 <==> s in TxidsOf(log) || s in AddressesOf(log) {
      OccurrencesPositive(log, s);
    }
  }

  /** A value of the program's single dictionary: one of the two lists, or
      a counter. */
  datatype Entry = Names(items: seq<string>) | Tally(n: int)

  /** The two keys under which the program keeps its lists. */
  const ListKeys: set<string> := {"addresses", "txids"}

  /** The tracker laid out as the program's one dictionary: the two lists
      under their own keys, every counter under its string. This is also
      the document written when results are saved. */
  function Snapshot(t: Tracker): (d: map<string, Entry>) {
    (map s | s in t.counts :: Tally(t.counts[s]))["addresses" := Names(t.addresses)]["txids" := Names(t.txids)]
  }

  /** Reads a tracker back from the dictionary. */
  function Restore(d: map<string, Entry>): (r: Option<Tracker>) {
    if "addresses" in d && d["addresses"].Names? && "txids" in d && d["txids"].Names? then
      Some(Tracker(d["addresses"].items, d["txids"].items,
                   map s | s in d && s !in ListKeys && d[s].Tally? :: d[s].n))
    else None
  }

  /** The dictionary holds the whole tracker exactly when no counter sits
      under one of the two list keys; such a counter is overwritten by
      the list. */
  lemma SnapshotRoundTrip(t: Tracker)
    ensures Restore(Snapshot(t)) == Some(t) <==> "addresses" !in t.counts && "txids" !in t.counts
  {
    var d := Snapshot(t);
    if "addresses" !in t.counts && "txids" !in t.counts {
      var m := map s | s in d && s !in ListKeys && d[s].Tally? :: d[s].n;
      assert m == t.counts;
    }
  }

  /** The exception Python raises for `list + int`. */
  const ListPlusInt := "TypeError: can only concatenate list (not \"int\") to list"

  /** The shape the program's dictionary always has: lists under the two
      list keys and counters everywhere else. */
  predicate Shaped(d: map<string, Entry>) {
    && ListKeys <= d.Keys
    && forall k :: k in d ==> (d[k].Names? <==> k in ListKeys)
  }

  /** Registration as the program performs it on its one dictionary
      (`list` is "txids" or "addresses"): append to the list if absent,
      then `d[s] = d.get(s, 0) + 1`, which raises a TypeError when `d[s]`
      is a list, that is when `s` is itself one of the two list keys. */
  function RegisterAsWritten(d: map<string, Entry>, list: string, s: string): (r: Result<map<string, Entry>>)
    requires list in ListKeys && Shaped(d)
    ensures r.Failure? <==> s in ListKeys
    ensures r.Success? ==> Shaped(r.value)
  {
    var items := d[list].items;
    var d1 := d[list := Names(if s in items then items else items + [s])];
    if s in d1 then
      match d1[s]
      case Tally(n) => Success(d1[s := Tally(n + 1)])
      case Names(_) => Failure(ListPlusInt)
    else Success(d1[s := Tally(1)])
  }

  /** For every other string the program's txid registration and the
      model's agree on the dictionary. */
  lemma RegisterTxidAsWrittenAgrees(t: Tracker, s: string)
    requires t.counts.Keys !! ListKeys
    requires s !in ListKeys
    ensures Shaped(Snapshot(t))
    ensures RegisterAsWritten(Snapshot(t), "txids", s) == Success(Snapshot(RegisterTxid(t, s)))
  {
    var d := Snapshot(t);
    var r := RegisterAsWritten(d, "txids", s);
    var e := Snapshot(RegisterTxid(t, s));
    assert r.value.Keys == e.Keys;
    forall k | k in e ensures r.value[k] == e[k] {
    }
    assert r.value == e;
  }

  /** The same for address registration. */
  lemma RegisterAddressAsWrittenAgrees(t: Tracker, s: string)
    requires t.counts.Keys !! ListKeys
    requires s !in ListKeys
    ensures Shaped(Snapshot(t))
    ensures RegisterAsWritten(Snapshot(t), "addresses", s) == Success(Snapshot(RegisterAddress(t, s)))
  {
    var d := Snapshot(t);
    var r := RegisterAsWritten(d, "addresses", s);
    var e := Snapshot(RegisterAddress(t, s));
    assert r.value.Keys == e.Keys;
    forall k | k in e ensures r.value[k] == e[k] {
    }
    assert r.value == e;
  }

  /** Registering a txid spelled "txids" stops the program, while the
      model lists it and counts it like any other. */
  lemma ListKeyRegistrationRaises()
    ensures RegisterAsWritten(Snapshot(Fresh), "txids", "txids").Failure?
    ensures var r := RegisterTxid(Fresh, "txids"); r.txids == ["txids"] && Count(r, "txids") == 1
  {
  }
}

=== FILE: transactions.dfy ===
/** The transaction record the walk reads, the reading of one input, and
    the single-request fetch `get_tx` with its network dispatch.

    A decoded JSON object is read with `dict.get`, which tells apart a key
    that is missing (the default is used) from a key present with `null`
    (Python's `None` is returned). `Field` keeps that distinction. */
module Transactions {
  import opened Base
  import opened Fetch
  import opened Tracking

  /** The value `obj.get(key)` finds. */
  datatype Field<T> = Absent | Null | Present(value: T)

  /** The previous output an input spends; only its address is read by the
      bookkeeping (the value is only displayed). */
  datatype Prevout = Prevout(address: Field<string>)

  datatype Input = Input(txid: Field<string>, prevout: Field<Prevout>)

  /** A transaction as the walk sees it: its list of inputs, if any. */
  datatype Tx = Tx(vin: Field<seq<Input>>)

  /** Placeholder recorded for an input whose source address is not given. */
  const Unresolved := "N/A"

  /** The input's txid when it is truthy (present, not null, not empty). */
  function InputTxid(i: Input): (r: Option<string>)
    ensures r.Some? <==> i.txid.Present? && i.txid.value != ""
    ensures r.Some? ==> r.value == i.txid.value
  {
    match i.txid
    case Present(id) => if id != "" then Some(id) else None
    case _ => None
  }

  /** The address the input registers, if any: the placeholder when the
      prevout or its address key is missing, nothing when the address is
      null or empty. A prevout that is present but null is read like a
      missing one (see `InputAddressAsWritten`). */
  function InputAddress(i: Input): (r: Option<string>)
    ensures r.Some? ==> r.value != ""
    ensures (i.prevout.Absent? || i.prevout.Null? || i.prevout.value.address.Absent?) ==> r == Some(Unresolved)
    ensures i.prevout.Present? && i.prevout.value.address.Present? && i.prevout.value.address.value != "" ==>
      r == Some(i.prevout.value.address.value)
    ensures r.None? <==> i.prevout.Present? && (i.prevout.value.address.Null? || i.prevout.value.address == Present(""))
  {
    var address := match i.prevout
      case Present(p) => p.address
      case _ => Absent;
    match address
    case Absent => Some(Unresolved)
    case Null => None
    case Present(a) => if a != "" then Some(a) else None
  }

  /** The input's address as the program reads it: `vin.get('prevout', {})`
      returns `None` for a null prevout and the next `.get` raises, which
      ends the whole run. `Failure` stands for that exception. */
  function InputAddressAsWritten(i: Input): (r: Result<Option<string>>)
    ensures r.Failure? <==> i.prevout.Null?
  {
    match i.prevout
    case Null => Failure("AttributeError: 'NoneType' object has no attribute 'get'")
    case Absent => Success(Some(Unresolved))
    case Present(p) =>
      match p.address
      case Absent => Success(Some(Unresolved))
      case Null => Success(None)
      case Present(a) => Success(if a != "" then Some(a) else None)
  }

  /** The program and the model read every input alike, except one whose
      prevout is null, where the program raises. */
  lemma AddressReadingsAgree(i: Input)
    ensures !i.prevout.Null? ==> InputAddressAsWritten(i) == Success(InputAddress(i))
    ensures i.prevout.Null? ==> InputAddressAsWritten(i).Failure? && InputAddress(i) == Some(Unresolved)
  {
  }

  /** A coinbase input (all-zero txid, null prevout): the program raises on
      it, the model registers the txid and the placeholder address. */
  lemma CoinbaseInputRaises()
    ensures var coinbase := Input(Present("0000000000000000000000000000000000000000000000000000000000000000"), Null);
      && InputAddressAsWritten(coinbase).Failure?
      && InputAddress(coinbase) == Some(Unresolved)
      && InputTxid(coinbase).Some?
  {
  }

  /** The registrations one input makes: its txid first, then its address. */
  function InputSightings(i: Input): (log: seq<Sighting>) {
    (match InputTxid(i) case Some(id) => [TxidSeen(id)] case None => [])
    + (match InputAddress(i) case Some(a) => [AddressSeen(a)] case None => [])
  }

  /** The registrations a transaction's input list makes, input by input. */
  function Sightings(inputs: seq<Input>): (log: seq<Sighting>)
    ensures |log| <= 2 * |inputs|
  {
    if inputs == [] then [] else InputSightings(inputs[0]) + Sightings(inputs[1..])
  }

  /** The exception the program raises while reading and registering input
      `i`, if any, in the order it would meet them: a null prevout when the
      address is read, then a txid spelled like one of the dictionary's
      list keys when it is counted, then such an address when it is
      counted. */
  function InputFault(i: Input): (fault: Option<string>)
    ensures fault.None? <==>
      && !i.prevout.Null?
      && (InputTxid(i).Some? ==> InputTxid(i).value !in ListKeys)
      && (InputAddress(i).Some? ==> InputAddress(i).value !in ListKeys)
    ensures i.prevout.Null? ==> fault == Some(InputAddressAsWritten(i).error)
    ensures !i.prevout.Null? && fault.Some? ==> fault == Some(ListPlusInt)
  {
    match InputAddressAsWritten(i)
    case Failure(e) => Some(e)
    case Success(address) =>
      if InputTxid(i).Some? && InputTxid(i).value in ListKeys then Some(ListPlusInt)
      else if address.Some? && address.value in ListKeys then Some(ListPlusInt)
      else None
  }

  /** The scan of a transaction's inputs as the program performs it: input
      by input, stopping at the first one that raises. When none does, it
      makes exactly the model's registrations. */
  function ExpandAsWritten(inputs: seq<Input>): (r: Result<seq<Sighting>>)
    ensures r.Success? <==> forall k :: 0 <= k < |inputs| ==> InputFault(inputs[k]).None?
    ensures r.Success? ==> r.value == Sightings(inputs)
    ensures r.Failure? ==>
      exists k :: 0 <= k < |inputs| && InputFault(inputs[k]) == Some(r.error) &&
        (forall j :: 0 <= j < k ==> InputFault(inputs[j]).None?)
  {
    if inputs == [] then Success([])
    else
      match InputFault(inputs[0])
      case Some(e) => Failure(e)
      case None =>
        var rest := ExpandAsWritten(inputs[1..]);
        ClearStep(inputs);
        if rest.Failure? then
          FirstFaultStep(inputs, rest.error);
          Failure(rest.error)
        else
          Success(InputSightings(inputs[0]) + rest.value)
  }

  /** The inputs are all clear iff the first one and the rest are. */
  lemma ClearStep(inputs: seq<Input>)
    requires inputs != []
    ensures (forall k :: 0 <= k < |inputs| ==> InputFault(inputs[k]).None?) <==>
      InputFault(inputs[0]).None? && forall k :: 0 <= k < |inputs[1..]| ==> InputFault(inputs[1..][k]).None?
  {
    assert forall k :: 1 <= k < |inputs| ==> inputs[k] == inputs[1..][k - 1];
  }

  /** A first fault of the rest, after a clear first input, is the first
      fault of the whole list. */
  lemma FirstFaultStep(inputs: seq<Input>, e: string)
    requires inputs != [] && InputFault(inputs[0]).None?
    requires exists k ::
      0 <= k < |inputs[1..]| && InputFault(inputs[1..][k]) == Some(e) && (forall j :: 0 <= j < k ==> InputFault(inputs[1..][j]).None?)
    ensures exists k ::
      0 <= k < |inputs| && InputFault(inputs[k]) == Some(e) && (forall j :: 0 <= j < k ==> InputFault(inputs[j]).None?)
  {
  }

  /** The truthy input txids in input order, repeats kept. */
  function TruthyTxids(inputs: seq<Input>): (ids: seq<string>)
    ensures forall id :: id in ids <==> exists k :: 0 <= k < |inputs| && InputTxid(inputs[k]) == Some(id)
  {
    if inputs == [] then []
    else
      var rest := TruthyTxids(inputs[1..]);
      assert forall id :: id in rest <==> exists k :: 1 <= k < |inputs| && InputTxid(inputs[k]) == Some(id) by {
        forall id ensures id in rest <==> exists k :: 1 <= k < |inputs| && InputTxid(inputs[k]) == Some(id) {
          if id in rest {
            var k :| 0 <= k < |inputs[1..]| && InputTxid(inputs[1..][k]) == Some(id);
            assert InputTxid(inputs[k + 1]) == Some(id);
          }
          if exists k :: 1 <= k < |inputs| && InputTxid(inputs[k]) == Some(id) {
            var k :| 1 <= k < |inputs| && InputTxid(inputs[k]) == Some(id);
            assert InputTxid(inputs[1..][k - 1]) == Some(id);
          }
        }
      }
      (match InputTxid(inputs[0]) case Some(id) => [id] case None => []) + rest
  }

  /** The txids registered while scanning `inputs` are its truthy input
      txids, in the same order. */
  lemma {:induction false} SightingsTxids(inputs: seq<Input>)
    ensures TxidsOf(Sightings(inputs)) == TruthyTxids(inputs)
    decreases |inputs|
  {
    if inputs != [] {
      SightingsTxids(inputs[1..]);
      TxidsOfConcat(InputSightings(inputs[0]), Sightings(inputs[1..]));
      var head := InputSightings(inputs[0]);
      assert TxidsOf(head) == (match InputTxid(inputs[0]) case Some(id) => [id] case None => []) by {
        if InputTxid(inputs[0]).Some? {
          assert head[1..] == (match InputAddress(inputs[0]) case Some(a) => [AddressSeen(a)] case None => []);
        }
      }
    }
  }

  lemma {:induction false} TxidsOfConcat(a: seq<Sighting>, b: seq<Sighting>)
    ensures TxidsOf(a + b) == TxidsOf(a) + TxidsOf(b)
    decreases |a|
  {
    if a == [] {
      assert a + b == b;
    } else {
      assert (a + b)[0] == a[0] && (a + b)[1..] == a[1..] + b;
      TxidsOfConcat(a[1..], b);
    }
  }

  const MainnetPrefix := "https://mempool.space/api/tx/"
  const TestnetPrefix := "https://mempool.space/testnet/api/tx/"

  /** The URL `get_tx` requests, or None for an unknown network. */
  function TxUrl(network: string, txid: string): (url: Option<string>) {
    if network == "bitcoin" then Some(MainnetPrefix + txid)
    else if network == "testnet" then Some(TestnetPrefix + txid)
    else None
  }

  /** Reads the network and txid back out of a transaction URL. */
  function TxTarget(url: string): (r: Option<(string, string)>) {
    if |MainnetPrefix| <= |url| && url[..|MainnetPrefix|] == MainnetPrefix then
      Some(("bitcoin", url[|MainnetPrefix|..]))
    else if |TestnetPrefix| <= |url| && url[..|TestnetPrefix|] == TestnetPrefix then
      Some(("testnet", url[|TestnetPrefix|..]))
    else None
  }

  /** Every URL `get_tx` builds names its network and txid unambiguously,
      so two different lookups never share a URL. */
  lemma TxUrlRoundTrip(network: string, txid: string)
    ensures TxUrl(network, txid).Some? <==> network == "bitcoin" || network == "testnet"
    ensures TxUrl(network, txid).Some? ==> TxTarget(TxUrl(network, txid).value) == Some((network, txid))
  {
    if network == "bitcoin" {
      var url := MainnetPrefix + txid;
      assert url[..|MainnetPrefix|] == MainnetPrefix;
      assert url[|MainnetPrefix|..] == txid;
    } else if network == "testnet" {
      var url := TestnetPrefix + txid;
      assert url[22] == 't' && MainnetPrefix[22] == 'a';
      assert url[..|MainnetPrefix|] != MainnetPrefix by {
        assert url[..|MainnetPrefix|][22] == 't';
      }
      assert url[..|TestnetPrefix|] == TestnetPrefix;
      assert url[|TestnetPrefix|..] == txid;
    }
  }

  /** `get_tx(txid, network)`: one request, no retry. A transaction comes
      back only from a status-200 reply whose body decodes; an unknown
      network sends no request at all. `decode` is `response.json()`,
      yielding None when it raises or the document is null. */
  function GetTx(http: string -> Attempt, decode: Bytes -> Option<Tx>, network: string, txid: string): (r: Option<Tx>)
    ensures r.Some? ==>
      && TxUrl(network, txid).Some?
      && IsOk(http(TxUrl(network, txid).value))
      && decode(http(TxUrl(network, txid).value).body) == r
    ensures TxUrl(network, txid).Some? && IsOk(http(TxUrl(network, txid).value)) ==>
      r == decode(http(TxUrl(network, txid).value).body)
  {
    match TxUrl(network, txid)
    case None => None
    case Some(url) =>
      match http(url)
      case Raised(_) => None
      case Response(status, body) => if status == 200 then decode(body) else None
  }

  /** For an unknown network the answer is None whatever the network
      would have replied. */
  lemma UnknownNetworkSendsNothing(http1: string -> Attempt, http2: string -> Attempt,
                                   decode: Bytes -> Option<Tx>, network: string, txid: string)
    requires network != "bitcoin" && network != "testnet"
    ensures GetTx(http1, decode, network, txid) == GetTx(http2, decode, network, txid) == None
  {
  }
}
